=== FILE: README.md ===
# React element scaffolder and weather-bot helpers, modelled in Dafny

The repository holds two unrelated Python utilities. `createcomponent.py` is a
console scaffolder for a React/TypeScript code base. It asks for a base folder
(`c` for components, `p` for pages) and an element path such as `Card` or
`Profile/Avatar`. It lists the files it is about to create, asks for
confirmation, and then creates three files in the element's directory below
`src/<folder>`:

- `<name>.tsx`, holding a component template;
- an empty `<name>.module.css`;
- an `index.ts` barrel file, holding a re-export line that is written only
  when the file is blank.

Each file creator first makes the directory and touches the file, and only
then applies its content rule. `main_weather_tg_bot.py` is a Telegram bot.
From it the model takes the pure decisions:

- the compass point named for a wind direction;
- the `response_result` string derived from the weather service's answer;
- the `;`-separated log lines the handlers write.

The Dafny project models these in eight modules:

| file | module | what it models |
|---|---|---|
| `text.dfy` | `Text` | Python's `str.isspace`, `strip`, ASCII `lower`, `split`, `join` and `s[k:]` |
| `paths.dfy` | `Paths` | `pathlib` joining (`path / "a/b"`), `parent` and `str(path)` on resolved absolute paths |
| `filesystem.dfy` | `FileSystem` | a file system as a map from paths to nodes, with `mkdir(parents=True, exist_ok=True)`, `touch(exist_ok=True)`, `read_text` and `write_text` |
| `elements.dfy` | `Elements` | `Element` and `_parse_as_element` |
| `creators.dfy` | `Creators` | the three `FileCreator`s and their shared two-phase `create` |
| `orchestrator.dfy` | `Orchestrator` | `ElementFilesCreator`: registration order, `create` and the displayed relative names |
| `prompts.dfy` | `Prompts` | the `AskParams` dialogue and `main`, with the user's input as a sequence of lines |
| `weather.dfy` | `Weather` | the wind compass, `response_result` and the log line formats of the bot |

What the code does, which the model follows:

- The element path is not validated. When the directory part of the answer
  starts with `/`, as in `/tmp/Card`, `pathlib` restarts at the root and the
  element leaves the source directory (`Elements.AbsoluteElementEscapes`).
  A lone name after `/`, as in `/Card`, leaves an empty directory part, so
  the element stays directly in the category root
  (`Elements.RootedNameStaysInRoot`).
- Empty and `.` segments are dropped when the path is joined.
- A single segment is used both as the directory and as the name, so it
  contributes one directory, not zero.
- The base-folder menu reads a whole line, strips it and lower-cases it, so
  ` C ` selects components.
- The confirmation compares the raw line, so `Y` and `N` are asked again.
- Python 3.10's `touch(exist_ok=True)` succeeds on an existing directory. The
  stylesheet creator therefore succeeds when its target is a directory, while
  the other two creators then fail on reading or writing it.
- The barrel line ends in `":`.
- A creator that raises ends the run; the files the earlier creators made
  stay on disk.

Two of these are corrected in a second variant of the model (see Findings).
Every operation that depends on them takes a `Variant`: `AsWritten` keeps the
code's raw confirmation and its `":` barrel line, and `Corrected` compares the
answer stripped and lower-cased and ends the barrel line in `";`. The lemmas
are stated for both variants unless their name says otherwise.

## Model

| member | source | states |
|---|---|---|
| Text.StripLeft | createcomponent.py:196 | `lstrip` removes a prefix made only of whitespace and stops at the first character that is not whitespace |
| Text.StripRight | createcomponent.py:106-107 | `rstrip` removes a suffix made only of whitespace and stops at the last character that is not whitespace |
| Text.StripSlice | createcomponent.py:186 | `s.strip()` is the part of `s` between a whitespace prefix and a whitespace suffix, and it neither starts nor ends with whitespace |
| Text.Strip | createcomponent.py:186 | `s.strip()`; its contract is stated by `Text.StripSlice` |
| Text.Lower | createcomponent.py:186 | `s.lower()` on ASCII letters; its contract is stated by `Text.LowerIsLetter` |
| Text.StripSingle | createcomponent.py:186 | a single character that is not whitespace is its own strip |
| Text.StripEmptyIffBlank | createcomponent.py:126 | `s.strip()` is falsy exactly when every character of `s` is whitespace, which is the barrel creator's emptiness test |
| Text.LowerIsLetter | createcomponent.py:186-190 | a stripped answer lower-cases to a single letter exactly when it is that letter in either case |
| Text.Split | createcomponent.py:156 | `split("/")` yields at least one part, no part contains the separator, and joining the parts with `/` gives the string back |
| Text.SplitJoin | createcomponent.py:156-160 | separator-free parts survive `"/".join` followed by `split("/")` |
| Text.Drop | createcomponent.py:65-68 | `s[k:]` clamps: it is the suffix after the first `k` characters, or empty when `k` exceeds the length |
| Text.JoinLeadingSeparator | createcomponent.py:160 | the joined directory parts start with `/` exactly when there are at least two of them and the first is empty |
| Text.Join | createcomponent.py:160 | `sep.join` of a single part is that part; `Text.Split` and `Text.SplitJoin` show that splitting undoes it on separator-free parts |
| Text.StripRightBlankTail | createcomponent.py:106-107 | trailing whitespace appended to a string does not change what `rstrip` leaves |
| Paths.Slash | createcomponent.py:165 | `base / s` extends `base` unless `s` starts with `/`, in which case it is the root-based path of the non-empty, non-`.` segments of `s` |
| Paths.KeepSegments | createcomponent.py:165 | what `pathlib` keeps of the parts of a string is made of well-formed segments taken from the parts, and a list of well-formed segments is kept unchanged; order and number are stated by `Paths.KeepSegmentsAppend` |
| Paths.KeepSegmentsKeepsAll | createcomponent.py:165 | no segment is lost: every part that is a segment is kept, so a part survives exactly when it is a segment |
| Paths.KeepSegmentsOne | createcomponent.py:165 | a single part is kept exactly when it is a segment |
| Paths.KeepSegmentsAppend | createcomponent.py:165 | keeping segments distributes over concatenation, so with `Paths.KeepSegmentsOne` the kept parts are the segment parts in their original order and number |
| Paths.SlashSegments | createcomponent.py:160-165 | joining `a/b/c` made of well-formed segments appends exactly those segments |
| Paths.Parent | createcomponent.py:73 | `.parent` drops the last segment of a path, and the root is its own parent |
| Paths.Render | createcomponent.py:66-68 | `str(path)` of an absolute path starts with `/` |
| Paths.RenderIsJoin | createcomponent.py:66-68 | below the root, `str(path)` is `/` followed by the segments joined by `/` |
| Paths.RelativeName | createcomponent.py:65-68 | `str(path)` with its first `len(str(src)) + 1` characters dropped; its contract is stated by `Paths.RelativeNameUnder` |
| Paths.RelativeNameUnder | createcomponent.py:63-69 | dropping `len(str(src)) + 1` characters from `str(p)` for `p` below `src` leaves the remaining segments joined by `/` |
| FileSystem.MakeDirs | createcomponent.py:73 | `mkdir(parents=True, exist_ok=True)` succeeds exactly when no prefix of the directory is a file, and otherwise reports a file on the way; on success it keeps every entry, adds only the directory and its ancestors, leaves all of them directories, and changes nothing when they already were |
| FileSystem.Touch | createcomponent.py:74 | `touch(exist_ok=True)` succeeds exactly when the entry exists or its parent is a directory; it leaves an existing entry alone, a directory included, and otherwise adds one empty file |
| FileSystem.ReadText | createcomponent.py:125 | reading succeeds exactly on a file and returns its contents |
| FileSystem.WriteText | createcomponent.py:129-131 | writing succeeds on a file, or on a missing entry whose parent is a directory; the target then holds the text and nothing else changes |
| Elements.CategoryRoot | createcomponent.py:164-165 | the category root is the source directory followed by `components` or `pages` |
| Elements.ParseAsElement | createcomponent.py:149-167 | the element's name is the last `/`-separated segment of the answer; unless the directory part of the answer starts with `/`, its directory lies below the category root |
| Elements.ParsedShape | createcomponent.py:156-163 | the last part of the split is the last segment, and the relative directory does not start with `/` when the answer does not |
| Elements.NestedElement | createcomponent.py:158-167 | with two or more well-formed segments, the directory is the category root followed by all segments but the last, and the name is the last |
| Elements.SingleElement | createcomponent.py:161-167 | a single segment is both the name and the one directory below the category root |
| Elements.ElementDirectory | createcomponent.py:156-167 | for every answer, the name is the last part and the directory is the segments of the directory parts, below the category root unless the directory part starts with `/`, when it restarts at the root |
| Elements.RootedNameStaysInRoot | createcomponent.py:156-167 | `/Card` puts `Card` directly in the category root, because its directory part is empty |
| Elements.AbsoluteElementEscapes | createcomponent.py:165 | `/tmp/Card` produces the element `Card` in `/tmp`, outside the source directory |
| Creators.TargetPath | createcomponent.py:91-122 | each creator's target lies directly in the element's directory, named `<name>.tsx`, `<name>.module.css` or `index.ts` |
| Creators.TsxContent | createcomponent.py:94-107 | the component text is the template with its trailing whitespace removed; the template starts with a letter, so nothing is removed at its start |
| Creators.TsxContentIsTemplate | createcomponent.py:94-107 | for a name not ending in whitespace, the written component is the template with its trailing whitespace stripped; an empty name also loses the space after `export default` |
| Creators.IndexLineAsWritten | createcomponent.py:129-131 | as written, the barrel line is `export {default} from "./`, then the name, then `":`, so the name reads back from it and it ends in a colon |
| Creators.IndexLine | createcomponent.py:129-131 | the corrected barrel line has the written line's length and agrees with it everywhere except the last character, which is `;`; it is not blank |
| Creators.BarrelLine | createcomponent.py:124-131 | the line either variant writes is not blank, so the barrel creator's `strip()` test never rewrites a barrel file it wrote |
| Creators.WriteContents | createcomponent.py:94-131 | the component creator overwrites a file with the template; the stylesheet creator changes nothing; the barrel creator writes its variant's line only when the file's contents are blank; a directory target fails for the two creators that read or write |
| Creators.WriteContentsSettled | createcomponent.py:124-131 | a target already holding what its creator writes, or a barrel file that is not blank, is left exactly as it is |
| Creators.Create | createcomponent.py:56-74 | `create` fails exactly when a file sits on the target's directory path, or when the target is a directory and the creator reads or writes it; after success the target exists and the tree stays well formed |
| Creators.TouchAfterMakeDirs | createcomponent.py:71-74 | once the directory chain exists the touch succeeds, keeps an existing target and otherwise leaves an empty file |
| Creators.CreateOutcome | createcomponent.py:56-61 | the content rule applied after the touch gives `create` its success condition, its result at the target and its frame |
| Creators.CreateWrites | createcomponent.py:56-131 | after success the target holds the template, or the stylesheet as it was (empty when new), or the variant's barrel line when the file was blank or new: `":` as written and `";` corrected |
| Creators.CreateFrame | createcomponent.py:71-74 | apart from its target, `create` changes no existing entry, adds only directories on the target's path, and leaves the element's directory in place |
| Creators.CreateLeavesSettled | createcomponent.py:56-131 | after success the component file holds exactly the template and the barrel file is not blank, which are the states the content rules leave untouched |
| Creators.CreateIdempotent | createcomponent.py:56-131 | in either variant, running a creator a second time changes nothing, so the barrel file never receives a second export line |
| Orchestrator.Register | createcomponent.py:214-218 | registration appends the creators after the ones already registered, in argument order |
| Orchestrator.RunFrom | createcomponent.py:210-212 | a run of the creators from index `i` on that stops names a creator at or after `i` |
| Orchestrator.RunFromGrows | createcomponent.py:210-212 | a run, whether done or stopped, keeps every entry the tree had |
| Orchestrator.RunFromWellFormed | createcomponent.py:210-212 | a run, whether done or stopped, leaves a well-formed tree |
| Orchestrator.RunFromFrame | createcomponent.py:210-212 | a run, whether done or stopped, leaves every entry that is not the target of a creator still to run exactly as it was |
| Orchestrator.RunFromDone | createcomponent.py:210-212 | after a run that is done, the target of every creator it ran exists |
| Orchestrator.RunFromStopped | createcomponent.py:210-212 | a run that stops does so at a creator that fails on the tree the earlier creators left; that tree is kept, and the targets of all the earlier creators exist in it |
| Orchestrator.RunFromStops | createcomponent.py:210-212 | a creator that fails ends the run at its own index, with the tree as that creator found it |
| Orchestrator.RunAll | createcomponent.py:210-212 | `create` is the run from the first registered creator; it is `Orchestrator.RunFrom` from index 0, and its outcome is stated by `Orchestrator.RunAllOutcome` |
| Orchestrator.RunAllOutcome | createcomponent.py:210-212 | the whole run leaves a well-formed tree that keeps every entry and changes only the creators' targets; when it is done every target exists, and when it stops, the creator it names fails on the tree the earlier creators left, and their targets exist in it |
| Orchestrator.CreateAll | createcomponent.py:210-212 | the loop over the creators computes the same outcome as the ordered fold |
| Orchestrator.RelativeFilenames | createcomponent.py:220-221 | one displayed name per registered creator |
| Orchestrator.RelativeFilenamesUnderSrc | createcomponent.py:63-69 | each displayed name is the element's directory relative to `src` followed by that creator's file name, in registration order |
| Orchestrator.StandardSetOnFreshDirectory | createcomponent.py:225-239 | where none of the three files exists, `main`'s creators complete and leave the template, an empty stylesheet and the variant's barrel line |
| Orchestrator.FreshFiles | createcomponent.py:232-236 | on such a directory each of the three creators succeeds in registration order, and together they leave the three files |
| Orchestrator.FreshComponent | createcomponent.py:94-107 | on a fresh directory the component creator writes the template and creates neither of the other two files |
| Orchestrator.FreshStylesheet | createcomponent.py:115-116 | after it, the stylesheet creator leaves an empty file and keeps the component |
| Orchestrator.FreshBarrel | createcomponent.py:124-131 | a missing barrel file receives the variant's export line; the other two files are kept |
| Orchestrator.BarrelDirectoryStopsRun | createcomponent.py:119-131 | where `index.ts` is a directory and the other two files are new, the first two creators succeed, the barrel creator raises `IsADirectoryError` on reading, and the run stops keeping the new component and stylesheet |
| Orchestrator.DirectoryTargetStops | createcomponent.py:124-125 | the barrel creator raises on reading a directory target, and the run stops at it with the tree unchanged |
| Orchestrator.DistinctTargets | createcomponent.py:91-122 | the three targets are different files |
| Prompts.AskUntil | createcomponent.py:171-192 | an answer consumes at least one line, and the input left afterwards is what followed the lines read |
| Prompts.AskUntilAnswers | createcomponent.py:171-192 | an answer comes from the first line the menu understands and every earlier line was not understood; when the input ends, no line was understood |
| Prompts.AnswerAfterUnclear | createcomponent.py:171-192 | after any number of lines it does not understand, the menu answers with the first line it understands and leaves the lines after it |
| Prompts.AnswerFirst | createcomponent.py:171-192 | a line the menu understands at once answers it and leaves the remaining lines |
| Prompts.AskUntilSkips | createcomponent.py:185-192 | lines the menu does not understand have no effect on its answer |
| Prompts.ClassifyBase | createcomponent.py:186-192 | the base-folder answer selects components exactly for `c` or `C` and pages exactly for `p` or `P`, surrounding whitespace ignored |
| Prompts.AskBaseFolder | createcomponent.py:182-192 | the menu answers with the folder of the first line that strips to `c`, `C`, `p` or `P`, every earlier line is asked again, and the input left is what follows that line; when the input ends, no line was understood |
| Prompts.AskElement | createcomponent.py:194-196 | the element answer is the next line, stripped, with no validation |
| Prompts.AskParams | createcomponent.py:140-147 | an answered dialogue yields an element whose name contains no `/` |
| Prompts.AskParamsAnswers | createcomponent.py:140-147 | after an understood base-folder line, the next line, stripped, is parsed below that folder |
| Prompts.ConfirmAnswerAsWritten | createcomponent.py:174-180 | as written, the confirmation proceeds exactly on `y` or an empty line and cancels exactly on `n`, compared raw |
| Prompts.AskOkAsWritten | createcomponent.py:169-180 | as written, the confirmation answers at the first line that is exactly `y`, empty or `n`, goes ahead unless that line is `n`, and asks again on every earlier line; when the input ends, no line was one of those three |
| Prompts.UpperCaseAnswersReprompt | createcomponent.py:174-180 | as written, `Y` and `N` are asked again |
| Prompts.ConfirmAnswer | createcomponent.py:174-180 | compared stripped and lower-cased, the confirmation proceeds exactly on `y`, `Y` or a blank line and cancels exactly on `n` or `N` |
| Prompts.AskOk | createcomponent.py:169-180 | corrected, the confirmation answers at the first line that `Prompts.ConfirmAnswer` understands, with that line's verdict, and asks again on every earlier line |
| Prompts.LetterAnswer | createcomponent.py:174-180 | as written, `y` goes ahead and `n` cancels, and `Y` and `N` are not understood; corrected, `y` and `Y` go ahead and `n` and `N` cancel |
| Prompts.Run | createcomponent.py:225-239 | a cancelled run, or one whose input ends, leaves the file system as it was; a completed run leaves a well-formed tree holding every earlier entry and all three targets of the element asked for; a failed run keeps every earlier entry, and one of the three creators fails on the tree it leaves |
| Prompts.ConfirmThenCreate | createcomponent.py:232-239 | once the element is known, the file system changes only after a confirming answer; cancelling or running out of input leaves it as it was, and a confirmed run keeps every entry and ends with all three targets or with a creator that fails |
| Prompts.CreateFiles | createcomponent.py:239 | once confirmed, the creators run, and the outcome is either created, with every target in place, or failed, with a creator that fails on the tree left; that tree is well formed, holds every earlier entry, and differs from the old one only at the creators' targets |
| Prompts.RunOutcome | createcomponent.py:239-240 | a creation that is done is reported as created and one that stopped as failed with the same error, both with the tree the creators left |
| Prompts.Shown | createcomponent.py:220-221 | the names `main` displays for its three creators; its contract is stated by `Prompts.ShownOfElement` |
| Prompts.ShownOfElement | createcomponent.py:220-221 | the confirmation lists the three files relative to `src`, in registration order |
| Prompts.ShownEntry | createcomponent.py:63-69 | each listed line is the element's directory relative to `src` followed by that creator's file name |
| Prompts.ShownInDir | createcomponent.py:63-69 | for an element two directories below `src`, each listed line spells out both directories and the file name |
| Prompts.ShownForName | createcomponent.py:161-167 | for `Card` under `c`, the listing is `components/Card/Card.tsx`, `components/Card/Card.module.css`, `components/Card/index.ts`, for any name and folder |
| Prompts.ShownForNested | createcomponent.py:156-167 | for `Profile/Avatar` under `p`, the listing is `pages/Profile/Avatar.tsx`, `pages/Profile/Avatar.module.css`, `pages/Profile/index.ts`, for any two segments and folder |
| Prompts.NestedShape | createcomponent.py:156-167 | `<dir>/<name>` parses to the element `name` in `<folder>/<dir>` |
| Prompts.CancelAfterUnclear | createcomponent.py:171-180 | lines the confirmation does not understand are asked again until a cancelling line cancels: `n` as written, `n` or `N` corrected |
| Prompts.CancelledRun | createcomponent.py:237-239 | a negative confirmation ends the run before any creator runs |
| Prompts.NoCreatesNothing | createcomponent.py:169-180 | a cancelling answer (`n` as written, `n` or `N` corrected), after any number of unclear ones, creates nothing and leaves the file system unchanged |
| Prompts.ConfirmedRun | createcomponent.py:237-239 | a positive confirmation runs the three creators on the element asked for, and the run ends as they do |
| Prompts.YesRunsCreators | createcomponent.py:225-239 | a confirming answer (`y` or an empty line as written; `y`, `Y` or a blank line corrected) runs the three creators on the element described by the first two answers |
| Prompts.UpperCaseYesThenNo | createcomponent.py:174-178 | for the answers `Y` then `n`, the code as written asks again and then cancels, leaving the file system unchanged; corrected, `Y` confirms and the creators run |
| Prompts.NewElementEndToEnd | createcomponent.py:225-239 | folder, plain name and a confirming answer on a fresh directory create `src/<folder>/<name>/` holding the template, an empty stylesheet and the variant's barrel line |
| Weather.WindCompass | main_weather_tg_bot.py:78-95 | each compass point covers a closed range of whole degrees; everything up to 30 and from 331 on, negative and out-of-range values included, is north |
| Weather.Label | main_weather_tg_bot.py:78-95 | each label is an adjective ending in `ый`; it starts with `С`, and indeed with `Север`, exactly for the three northern points, and with `Ю` exactly for the three southern ones |
| Weather.WindCompassMatchesTable | main_weather_tg_bot.py:78-95 | the `elif` chain agrees with a table of sector boundaries for every degree |
| Weather.EveryPointReached | main_weather_tg_bot.py:78-95 | every compass point is named for some degree between 0 and 359 |
| Weather.LabelsDistinct | main_weather_tg_bot.py:78-95 | different points print different labels |
| Weather.ResponseResult | main_weather_tg_bot.py:54-103 | the logged result is the service's message for the string code `"404"`, `city (local time)` when coordinates came back, and empty otherwise |
| Weather.ResponseResultEmpty | main_weather_tg_bot.py:54-103 | the logged result is empty exactly for a string `"404"` with an empty message, or for an answer with neither that code nor coordinates |
| Weather.NumericNotFoundIsSilent | main_weather_tg_bot.py:54 | a numeric 404 without coordinates is not treated as "not found" and logs an empty result |
| Weather.Decimal | main_weather_tg_bot.py:34 | `str(id)` is non-empty and made of digits and a minus sign only |
| Weather.Digits | main_weather_tg_bot.py:34 | the digits of a natural number have no leading zero |
| Weather.DigitsRoundTrip | main_weather_tg_bot.py:34 | reading the digits back gives the number |
| Weather.StartLine | main_weather_tg_bot.py:33-36 | the `/start` log line is the time stamp, id, full name, `command=<text>` and an empty field, joined with `;` and ended by a newline |
| Weather.MessageLine | main_weather_tg_bot.py:106-120 | the weather log line is the time stamp, id, full name, `message.text=<text>` and a last field, `result=<result>` or `Exception=<error>`, joined with `;` and ended by a newline |
| Weather.RecordFields | main_weather_tg_bot.py:107-111 | a record without its newline splits back into its fields when none of them contains `;` |
| Weather.WeatherLog | main_weather_tg_bot.py:106-120 | the logged line starts with the time stamp and `;`, and ends with `;result=` and the result when the service answered, or `;Exception=` and the error when something raised, then a newline |
| Weather.MessageLineEnds | main_weather_tg_bot.py:106-111 | any message line starts with the time stamp and `;` and ends with `;`, its last field and a newline |
| Weather.WeatherLogReadsBack | main_weather_tg_bot.py:106-112 | when the logged strings are free of `;`, the weather line splits back into the stamp, id, name, message text and `result=` followed by the response result |
| Weather.ExceptionLogReadsBack | main_weather_tg_bot.py:114-120 | when the logged strings and the error text are free of `;`, the exception line splits back into the stamp, id, name, message text and `Exception=` followed by the error |

## Left out

- Real file system behaviour is not modelled: symbolic links, `..` segments (which only `resolve()` collapses), permissions, a full disk, and the different `OSError` kinds. Paths are absolute and already resolved, and a tree is a map from such paths to nodes.
- Console output is left out: the prompt texts, the `Colors` escape codes, the listing's layout and the final message. The displayed names are modelled (`Prompts.Shown`); how they are printed is not.
- `KeyboardInterrupt` is not modelled. Running out of input lines is modelled as `InputEnded`; the `EOFError` this raises is not caught in the source either.
- `str.lower` is modelled on ASCII letters only. Non-ASCII case mappings do not change which answers equal `c`, `p`, `y` or `n`.
- Text.Join: its own contract states only the single-part case. Its relation to `split` is stated by `Text.Split` (splitting and joining again gives the string back) and `Text.SplitJoin` (joining separator-free parts and splitting again gives the parts back).
- `Orchestrator.RelativeFilenames`: its own contract states only the count. The contents are stated by `Orchestrator.RelativeFilenamesUnderSrc` for elements below the source directory, since `str(path)` slicing means nothing for paths outside it.
- The bot's I/O is left out: aiogram, the HTTP request, JSON decoding and its `KeyError`s, `message.reply`, `protocol()` appending to the day's file, and the unused `send_location` handler. Any exception the handler catches is modelled as `Raised` carrying its text.
- Dates and times are parameters. The `%Y-%m-%d %H:%M:%S` stamp and the city's local time `%d.%m.%Y %H:%M` are strings the model receives; `datetime` itself is not modelled.
- The weather reply text is left out: temperature, pressure, humidity, sunrise and sunset, and day length are floats and formatted times.
- Weather.WindCompass: only whole degrees are modelled, as the weather service reports them; fractional degrees are not.
- A 404 answer without a `message`: the handler first calls `message.reply(None)`, which most likely raises before the result is assigned. The reply is an aiogram call, so the caller of `Weather.WeatherLog` chooses the outcome: `Raised` logs the exception, and `Answered` would log `result=None`.
- A path that starts with exactly two slashes: `pathlib` keeps `//` as a root of its own, while the model folds it into `/`. On Linux both name the same directory; only `str()` of such a path differs, and the displayed names are stated only for elements below the source directory.
- Decoding: `read_text` decodes with the locale's encoding and raises `UnicodeDecodeError` on bytes it cannot decode. File contents are modelled as strings, so that error is not modelled.

## Findings

| source | as written | input that shows it | evidently intended | confidence | as-written member | corrected member |
|---|---|---|---|---|---|---|
| createcomponent.py:174 | `.strip().lower()` is applied to the prompt text, so the answer is compared raw | `Y` or `N` (the prompt shows `[Y]/N`) is asked again | the answer stripped and lower-cased, as in `_ask_base_folder` | medium, not executed | Prompts.AskOkAsWritten | Prompts.AskOk |
| createcomponent.py:130 | the barrel line ends in `":` | any name: `export {default} from "./Card":` is not a valid TypeScript statement | `export {default} from "./Card";` | high, not executed | Creators.IndexLineAsWritten | Creators.IndexLine |

Both halves of each row are part of the model, selected by a `Variant`.
`Prompts.UpperCaseAnswersReprompt` and `Prompts.UpperCaseYesThenNo` exhibit
the first discrepancy: as written, `Y` then `n` cancels, while the corrected
dialogue runs the creators. `Creators.IndexLineAsWritten` and
`Creators.IndexLine` state the second: the two lines differ only in their last
character. Every creator, run and end-to-end lemma is stated for both
variants: `Prompts.LetterAnswer` spells out which one-letter answers each
variant understands, and `Orchestrator.NewElementFiles` names the barrel line
each variant leaves.

=== FILE: creators.dfy ===
/** The three file creators of createcomponent.py (`TSXFileCreator`,
    `CSSFileCreator`, `IndexFileCreator`) and the two-phase `FileCreator.create`
    they share: first make the directory and touch the file, then apply the
    creator's content rule. */
module Creators {
  import Text
  import opened Paths
  import opened FileSystem
  import opened Elements

  datatype Kind = Tsx | Css | Index

  /** The two readings of the scaffolder: the code as written, and the code
      with its two defects corrected (the barrel line ends in `;`, and the
      confirmation compares the answer stripped and lower-cased). */
  datatype Variant = AsWritten | Corrected

  /** The file name each creator appends to the element's directory. */
  function FileName(kind: Kind, name: string): string {
    match kind
    case Tsx => name + ".tsx"
    case Css => name + ".module.css"
    case Index => "index.ts"
  }

  /** `get_absolute_filename`: every target lies directly in the element's
      directory. */
  function TargetPath(kind: Kind, e: Element): (p: Path)
    ensures '/' !in e.name ==> p == e.fullPath + [FileName(kind, e.name)]
    ensures '/' !in e.name ==> Parent(p) == e.fullPath
  {
    if '/' !in e.name then
      SlashSegment(e.fullPath, FileName(kind, e.name));
      Slash(e.fullPath, FileName(kind, e.name))
    else
      Slash(e.fullPath, FileName(kind, e.name))
  }

  /** The component template as its literal pieces around the interpolated
      name, up to the last name; lines are joined with `\n`. */
  function TsxPieces(n: string): seq<string> {
    [TsxImport, n, TsxInterface, n, TsxProps, n, TsxArrow, n, TsxDiv, n, TsxExport, n]
  }

  const TsxImport: string := "import styles from \"./"
  const TsxInterface: string := ".module.css\"\n\ninterface "
  const TsxProps: string := "Props {\n\n}             \n\nconst "
  const TsxArrow: string := " = ({}: "
  const TsxDiv: string := "Props) => (\n    <div>"
  const TsxExport: string := "</div>\n)\n\nexport default "

  function TsxCore(n: string): (r: string)
    ensures |r| > 0 && r[0] == 'i'
  {
    Text.ConcatStartsWithFirst(TsxPieces(n));
    Text.Concat(TsxPieces(n))
  }

  /** The whitespace the template literal carries after the last name. */
  const TsxTail: string := "    \n        "

  /** The text `TSXFileCreator` writes: the template, stripped. The template
      starts with a letter, so stripping it only removes the whitespace at
      its end. */
  function TsxContent(n: string): (r: string)
    ensures r == Text.StripRight(TsxCore(n))
  {
    var whole := TsxCore(n) + TsxTail;
    assert whole[0] == 'i';
    assert Text.StripLeft(whole) == whole;
    assert Text.Blank(TsxTail);
    Text.StripRightBlankTail(TsxCore(n), TsxTail);
    Text.Strip(whole)
  }

  /** What every barrel line starts with, up to the element's name. */
  const ExportPrefix: string := "export {default} from \"./"

  /** The barrel line of `IndexFileCreator` as the code spells it: the name
      can be read back from it, and it ends in a colon, which no TypeScript
      statement does. */
  function IndexLineAsWritten(n: string): (r: string)
    ensures |r| == |ExportPrefix| + |n| + 2
    ensures r[..|ExportPrefix|] == ExportPrefix && r[|ExportPrefix|..|ExportPrefix| + |n|] == n
    ensures r[|r| - 2] == '"' && r[|r| - 1] == ':'
  {
    ExportPrefix + n + "\":"
  }

  /** The barrel line the creator evidently means, and the one the
      `Corrected` variant writes: the same re-export terminated by a
      semicolon. It is not blank,
      so a barrel file once written is never rewritten. */
  function IndexLine(n: string): (r: string)
    ensures |r| == |IndexLineAsWritten(n)| && r[..|r| - 1] == IndexLineAsWritten(n)[..|r| - 1]
    ensures r[|r| - 1] == ';'
    ensures !Text.Blank(r)
  {
    var r := "export {default} from \"./" + n + "\";";
    assert r[0] == 'e';
    r
  }

  /** For a name that does not end in whitespace (every name the prompts can
      produce), the stripped template is the template without its tail; an
      empty name also loses the space after `export default`. */
  lemma TsxContentIsTemplate(n: string)
    requires n == [] || !Text.IsSpace(n[|n| - 1])
    ensures n != [] ==> TsxContent(n) == TsxCore(n)
    ensures n == [] ==> TsxContent(n) == TsxCore(n)[..|TsxCore(n)| - 1]
  {
    var core := TsxCore(n);
    if n == [] {
      TsxCoreEndsWithSpace();
    } else {
      assert core == Text.Concat(TsxPieces(n)[..11]) + n;
      assert core[|core| - 1] == n[|n| - 1];
      Text.TrailingStartUnique(core, |core|);
      assert core[..|core|] == core;
    }
  }

  /** With an empty name the template ends in `export default `, a single
      space after a letter. */
  lemma TsxCoreEndsWithSpace()
    ensures Text.TrailingStart(TsxCore([])) == |TsxCore([])| - 1
  {
    var ps := TsxPieces([]);
    var core := TsxCore([]);
    var last := ps[10];
    assert core == Text.Concat(ps[..11]);
    assert ps[..11][..10] == ps[..10];
    assert core == Text.Concat(ps[..10]) + last;
    assert last[|last| - 1] == ' ' && last[|last| - 2] == 't';
    assert core[|core| - 1] == ' ' && core[|core| - 2] == 't';
    Text.TrailingStartUnique(core, |core| - 1);
  }

  /** The barrel line a variant writes. Neither is blank, so a barrel file
      once written is never rewritten. */
  function BarrelLine(v: Variant, n: string): (r: string)
    ensures !Text.Blank(r)
  {
    if v == AsWritten then
      var r := IndexLineAsWritten(n);
      assert r[0] == 'e';
      r
    else IndexLine(n)
  }

  /** `_write_file_contents` of each creator, run once the target exists. */
  function WriteContents(v: Variant, kind: Kind, e: Element, fs: Tree, p: Path): (r: Result<Tree>)
    requires WellFormed(fs) && p in fs
    ensures r.Ok? <==> kind == Css || fs[p].File?
    ensures r.Ok? ==> WellFormed(r.value) && r.value.Keys == fs.Keys
    ensures r.Ok? ==> forall q :: q in fs && q != p ==> r.value[q] == fs[q]
    ensures r.Ok? && kind == Tsx ==> r.value[p] == File(TsxContent(e.name))
    ensures r.Ok? && kind == Css ==> r.value == fs
    ensures r.Ok? && kind == Index ==>
      r.value[p] == (if Text.Blank(fs[p].contents) then File(BarrelLine(v, e.name)) else fs[p])
  {
    match kind
    case Tsx => WriteText(fs, p, TsxContent(e.name))
    case Css => Ok(fs)
    case Index =>
      match ReadText(fs, p)
      case Err(x) => Err(x)
      case Ok(current) =>
        Text.StripEmptyIffBlank(current);
        if Text.Strip(current) != [] then Ok(fs)
        else WriteText(fs, p, BarrelLine(v, e.name))
  }

  /** Why `create` can fail: a file where a directory of the path is needed,
      or, for the creators that read or write, a directory at the target. */
  predicate CreateFails(kind: Kind, fs: Tree, p: Path) {
    FileOnTheWay(fs, Parent(p)) || (kind != Css && p in fs && fs[p].Directory?)
  }

  /** What the target holds after a successful `create`. */
  function Expected(v: Variant, kind: Kind, name: string, before: Tree, p: Path): Node {
    var current := if p in before then before[p] else File([]);
    match kind
    case Tsx => File(TsxContent(name))
    case Css => current
    case Index =>
      if current.File? && Text.Blank(current.contents) then File(BarrelLine(v, name)) else current
  }

  /** `FileCreator.create`: the target is touched before the content rule
      runs, so after success it exists; nothing else in the tree changes
      apart from the directories created on its way. */
  function Create(v: Variant, kind: Kind, e: Element, fs: Tree): (r: Result<Tree>)
    requires WellFormed(fs)
    requires '/' !in e.name
    ensures r.Ok? <==> !CreateFails(kind, fs, TargetPath(kind, e))
    ensures r.Ok? ==> WellFormed(r.value)
    ensures r.Ok? ==> fs.Keys <= r.value.Keys && TargetPath(kind, e) in r.value
  {
    var p := TargetPath(kind, e);
    match MakeDirs(fs, Parent(p))
    case Err(x) =>
      Err(x)
    case Ok(fs1) =>
      TouchAfterMakeDirs(fs, fs1, p);
      match Touch(fs1, p)
      case Err(x) => Err(x)
      case Ok(fs2) =>
        CreateOutcome(v, kind, e, fs, fs2, p);
        WriteContents(v, kind, e, fs2, p)
  }

  /** The target holds what the creator's content rule leaves there: the
      component template, the stylesheet as it was, or the barrel line when
      the index file was blank and the file unchanged otherwise. */
  lemma CreateWrites(v: Variant, kind: Kind, e: Element, fs: Tree)
    requires WellFormed(fs) && '/' !in e.name
    requires !CreateFails(kind, fs, TargetPath(kind, e))
    ensures Create(v, kind, e, fs).value[TargetPath(kind, e)] == Expected(v, kind, e.name, fs, TargetPath(kind, e))
  {
    var p := TargetPath(kind, e);
    var fs1 := MakeDirs(fs, Parent(p)).value;
    TouchAfterMakeDirs(fs, fs1, p);
    var fs2 := Touch(fs1, p).value;
    CreateOutcome(v, kind, e, fs, fs2, p);
  }

  /** Apart from its target, `create` changes nothing that existed and adds
      only the directories on the way; the element's directory then exists. */
  lemma CreateFrame(v: Variant, kind: Kind, e: Element, fs: Tree)
    requires WellFormed(fs) && '/' !in e.name
    requires !CreateFails(kind, fs, TargetPath(kind, e))
    ensures var out := Create(v, kind, e, fs).value;
      && (forall q :: q in fs && q != TargetPath(kind, e) ==> out[q] == fs[q])
      && AddsOnlyAlong(fs, out, TargetPath(kind, e))
      && DirectoriesAlong(out, e.fullPath)
  {
    var p := TargetPath(kind, e);
    var fs1 := MakeDirs(fs, Parent(p)).value;
    TouchAfterMakeDirs(fs, fs1, p);
    var fs2 := Touch(fs1, p).value;
    CreateOutcome(v, kind, e, fs, fs2, p);
    var out := Create(v, kind, e, fs).value;
    ParentChainOfEntry(out, p);
  }

  /** Once the parent chain exists, touching succeeds; the target keeps the
      node it had before, or becomes a fresh empty file. */
  lemma TouchAfterMakeDirs(fs: Tree, fs1: Tree, p: Path)
    requires WellFormed(fs) && WellFormed(fs1) && |p| > 0
    requires DirectoriesAlong(fs1, Parent(p))
    requires Keeps(fs, fs1) && AddsOnlyAlong(fs, fs1, Parent(p))
    ensures Touch(fs1, p).Ok?
    ensures var fs2 := Touch(fs1, p).value;
      && WellFormed(fs2) && p in fs2
      && (p in fs ==> fs2[p] == fs[p])
      && (p !in fs ==> fs2[p] == File([]))
      && Keeps(fs, fs2) && AddsOnlyAlong(fs, fs2, p)
  {
    var up := Parent(p);
    if |up| > 0 {
      assert up[..|up|] == up;
    }
    var fs2 := Touch(fs1, p).value;
    assert p in fs <==> p in fs1;
    forall q | q in fs2 && q !in fs ensures Along(q, p) {
      if q != p {
        assert q in fs1;
        assert q == up[..|q|];
      }
    }
  }

  /** The content rule applied to the touched tree gives `create` its
      contract. */
  lemma CreateOutcome(v: Variant, kind: Kind, e: Element, fs: Tree, fs2: Tree, p: Path)
    requires WellFormed(fs) && WellFormed(fs2) && p in fs2
    requires !FileOnTheWay(fs, Parent(p))
    requires p in fs ==> fs2[p] == fs[p]
    requires p !in fs ==> fs2[p] == File([])
    requires Keeps(fs, fs2) && AddsOnlyAlong(fs, fs2, p)
    ensures var r := WriteContents(v, kind, e, fs2, p);
      && (r.Ok? <==> !CreateFails(kind, fs, p))
      && (r.Ok? ==> WellFormed(r.value))
      && (r.Ok? ==> fs.Keys <= r.value.Keys && p in r.value)
      && (r.Ok? ==> r.value[p] == Expected(v, kind, e.name, fs, p))
      && (r.Ok? ==> forall q :: q in fs && q != p ==> r.value[q] == fs[q])
      && (r.Ok? ==> AddsOnlyAlong(fs, r.value, p))
  {
  }

  /** The content rules leave a target alone once it holds what they write;
      a barrel file that is not blank is never touched again. */
  lemma WriteContentsSettled(v: Variant, kind: Kind, e: Element, fs: Tree, p: Path)
    requires WellFormed(fs) && p in fs
    requires kind == Tsx ==> fs[p] == File(TsxContent(e.name))
    requires kind == Index ==> fs[p].File? && !Text.Blank(fs[p].contents)
    ensures WriteContents(v, kind, e, fs, p) == Ok(fs)
  {
    if kind == Tsx {
      assert fs[p := File(TsxContent(e.name))] == fs;
    }
  }

  /** Every directory above an existing entry exists. */
  lemma ParentChainOfEntry(fs: Tree, p: Path)
    requires WellFormed(fs) && p in fs
    ensures DirectoriesAlong(fs, Parent(p))
  {
    var up := Parent(p);
    forall k | 0 < k <= |up| ensures IsDirectory(fs, up[..k]) {
      assert AncestorsAreDirectories(fs, p);
      assert up[..k] == p[..k];
    }
  }

  /** Running a creator a second time changes nothing: in particular the
      barrel file keeps exactly one export line. */
  lemma CreateIdempotent(v: Variant, kind: Kind, e: Element, fs: Tree)
    requires WellFormed(fs) && '/' !in e.name
    requires !CreateFails(kind, fs, TargetPath(kind, e))
    ensures Create(v, kind, e, Create(v, kind, e, fs).value) == Create(v, kind, e, fs)
  {
    var fs1 := Create(v, kind, e, fs).value;
    var p := TargetPath(kind, e);
    CreateLeavesSettled(v, kind, e, fs);
    ParentChainOfEntry(fs1, p);
    assert MakeDirs(fs1, Parent(p)) == Ok(fs1);
    assert Touch(fs1, p) == Ok(fs1);
    WriteContentsSettled(v, kind, e, fs1, p);
  }

  /** After success the target holds what the content rule would leave
      alone: the template for the component, a barrel file that is not
      blank for the index creator. */
  lemma CreateLeavesSettled(v: Variant, kind: Kind, e: Element, fs: Tree)
    requires WellFormed(fs) && '/' !in e.name
    requires !CreateFails(kind, fs, TargetPath(kind, e))
    ensures var out := Create(v, kind, e, fs).value;
      && (kind == Tsx ==> out[TargetPath(kind, e)] == File(TsxContent(e.name)))
      && (kind == Index ==> out[TargetPath(kind, e)].File? && !Text.Blank(out[TargetPath(kind, e)].contents))
  {
    CreateWrites(v, kind, e, fs);
  }
}

=== FILE: elements.dfy ===
/** The element being scaffolded and how the user's answer becomes one
    (`Element` and `AskParams._parse_as_element` in createcomponent.py). */
module Elements {
  import Text
  import opened Paths

  /** The two destination roots below the source directory. */
  datatype Category = Components | Pages

  function FolderName(c: Category): string {
    match c
    case Components => "components"
    case Pages => "pages"
  }

  /** The directory the element's files go to, and the element's name. */
  datatype Element = Element(fullPath: Path, name: string)

  /** `SRC_DIR`: the `src` directory next to the script. */
  function SrcDir(scriptDir: Path): Path {
    scriptDir + ["src"]
  }

  /** `name` is the last `/`-separated segment of `s`: a suffix of `s` that
      is either all of `s` or directly preceded by a `/`. */
  predicate IsLastSegment(s: string, name: string) {
    && '/' !in name
    && |name| <= |s|
    && s[|s| - |name|..] == name
    && (|name| < |s| ==> s[|s| - |name| - 1] == '/')
  }

  /** The directory of a category below the source directory. */
  function CategoryRoot(src: Path, base: Category): (r: Path)
    ensures r == src + [FolderName(base)]
  {
    SlashSegment(src, FolderName(base));
    Slash(src, FolderName(base))
  }

  /** The relative directory `_parse_as_element` derives from the parts:
      all but the last joined with `/`, or the lone part itself. */
  function RelativeDir(parts: seq<string>): string
    requires |parts| >= 1
  {
    if |parts| > 1 then Text.Join(parts[..|parts| - 1], '/') else parts[0]
  }

  /** `_parse_as_element`: the last segment is the name; the segments before
      it, joined back with `/`, form the directory below the category root,
      and a lone segment is used as the directory as well. */
  function ParseAsElement(src: Path, elementStr: string, base: Category): (e: Element)
    ensures IsLastSegment(elementStr, e.name)
    ensures var rel := RelativeDir(Text.Split(elementStr, '/'));
      (|rel| == 0 || rel[0] != '/') ==>
      |src| < |e.fullPath| && e.fullPath[..|src| + 1] == CategoryRoot(src, base)
  {
    var parts := Text.Split(elementStr, '/');
    var root := CategoryRoot(src, base);
    var dir := Slash(root, RelativeDir(parts));
    assert |root| == |src| + 1;
    ParsedShape(elementStr);
    Element(dir, parts[|parts| - 1])
  }

  /** How the element string decomposes into its relative directory and name. */
  lemma ParsedShape(elementStr: string)
    ensures var parts := Text.Split(elementStr, '/');
      && IsLastSegment(elementStr, parts[|parts| - 1])
      && (|elementStr| == 0 || elementStr[0] != '/' ==>
            var rel := RelativeDir(parts); |rel| == 0 || rel[0] != '/')
  {
    var parts := Text.Split(elementStr, '/');
    var name := parts[|parts| - 1];
    if |parts| > 1 {
      var relative := RelativeDir(parts);
      Text.JoinSnoc(parts, '/');
      assert elementStr == relative + ['/'] + name;
      assert |relative| > 0 ==> relative[0] == elementStr[0];
      assert elementStr[|elementStr| - |name|..] == name;
    } else {
      assert elementStr == name;
    }
  }

  /** The parts of the element string, for the lemmas below. */
  function Segments(elementStr: string): seq<string> {
    Text.Split(elementStr, '/')
  }

  /** With two or more well-formed segments, the directory is the category
      root followed by all segments but the last, and the name is the last. */
  lemma NestedElement(src: Path, elementStr: string, base: Category)
    requires |Segments(elementStr)| >= 2
    requires Canonical(Segments(elementStr)[..|Segments(elementStr)| - 1])
    ensures var parts := Segments(elementStr);
      ParseAsElement(src, elementStr, base) ==
      Element(src + [FolderName(base)] + parts[..|parts| - 1], parts[|parts| - 1])
  {
    var parts := Segments(elementStr);
    SlashSegments(CategoryRoot(src, base), parts[..|parts| - 1]);
  }

  /** A single well-formed segment names both the element and its own
      directory, so the name occurs twice in every file path. */
  lemma SingleElement(src: Path, elementStr: string, base: Category)
    requires IsSegment(elementStr)
    ensures ParseAsElement(src, elementStr, base) ==
      Element(src + [FolderName(base), elementStr], elementStr)
  {
    Text.SplitNoSeparator(elementStr, '/');
    var parts := Text.Split(elementStr, '/');
    assert parts == [elementStr];
    assert RelativeDir(parts) == elementStr;
    var root := CategoryRoot(src, base);
    SlashSegment(root, elementStr);
    assert Slash(root, elementStr) == src + [FolderName(base), elementStr];
    var e := ParseAsElement(src, elementStr, base);
    assert e.name == elementStr;
    assert e.fullPath == Slash(root, elementStr);
  }

  /** The parts that name the element's directory: all but the last, or the
      lone part itself. */
  function DirParts(parts: seq<string>): seq<string>
    requires |parts| >= 1
  {
    if |parts| > 1 then parts[..|parts| - 1] else parts
  }

  /** The exact result for every answer: the directory keeps the segments of
      the directory parts, below the category root unless the directory part
      starts with `/` (an empty first part followed by at least two more),
      in which case pathlib restarts at the root. */
  lemma ElementDirectory(src: Path, elementStr: string, base: Category)
    ensures var parts := Segments(elementStr);
      var e := ParseAsElement(src, elementStr, base);
      && e.name == parts[|parts| - 1]
      && e.fullPath ==
           (if |parts| >= 3 && parts[0] == "" then [] else CategoryRoot(src, base))
           + KeepSegments(DirParts(parts))
  {
    var parts := Segments(elementStr);
    var dir := DirParts(parts);
    var rel := RelativeDir(parts);
    if |parts| > 1 {
      assert rel == Text.Join(dir, '/');
      Text.SplitJoin(dir, '/');
      Text.JoinLeadingSeparator(dir, '/');
    } else {
      assert rel == parts[0];
      Text.SplitNoSeparator(rel, '/');
      if |rel| > 0 {
        assert rel[0] in parts[0];
      }
    }
    assert Text.Split(rel, '/') == dir;
  }

  /** A leading `/` before a single name leaves an empty directory part, so
      the element stays directly in the category root. */
  lemma RootedNameStaysInRoot(src: Path, name: string, base: Category)
    requires IsSegment(name)
    ensures ParseAsElement(src, "/" + name, base) == Element(CategoryRoot(src, base), name)
  {
    Text.SplitAfterPart("", '/', name);
    Text.SplitNoSeparator(name, '/');
    assert "" + ['/'] + name == "/" + name;
    ElementDirectory(src, "/" + name, base);
    assert Segments("/" + name) == ["", name];
    assert KeepSegments([""]) == [];
  }

  /** No validation is done: when the directory part starts with `/`, pathlib
      restarts at the root and the element leaves the source directory. */
  lemma AbsoluteElementEscapes(src: Path, base: Category)
    ensures ParseAsElement(src, "/tmp/Card", base) == Element(["tmp"], "Card")
  {
    var parts := ["", "tmp", "Card"];
    assert Text.Join(parts, '/') == "/tmp/Card";
    Text.SplitJoin(parts, '/');
    var rel := ["", "tmp"];
    assert parts[..2] == rel;
    assert RelativeDir(parts) == "/tmp";
    assert Text.Join(rel, '/') == "/tmp";
    Text.SplitJoin(rel, '/');
    assert KeepSegments(rel) == ["tmp"];
    var e := ParseAsElement(src, "/tmp/Card", base);
    assert e.name == "Card";
    assert e.fullPath == Slash(CategoryRoot(src, base), "/tmp");
  }
}

=== FILE: filesystem.dfy ===
/** An abstract file system: a map from absolute paths to nodes, with the four
    `pathlib` calls the scaffolder makes (`mkdir(parents=True, exist_ok=True)`,
    `touch(exist_ok=True)`, `read_text`, `write_text`). The root `[]` always
    exists as a directory and is not stored in the map. */
module FileSystem {
  import opened Paths

  datatype Node = Directory | File(contents: string)

  type Tree = map<Path, Node>

  /** What a failing call raises: a file where a directory is needed, a
      directory where a file is needed, or a missing parent. */
  datatype FsError = NotADirectory(at: Path) | IsADirectory(at: Path) | NotFound(at: Path)

  datatype Result<T> = Ok(value: T) | Err(error: FsError)

  predicate IsDirectory(fs: Tree, p: Path) {
    |p| == 0 || (p in fs && fs[p].Directory?)
  }

  predicate IsFile(fs: Tree, p: Path) {
    p in fs && fs[p].File?
  }

  /** Every proper ancestor of `p` exists and is a directory. */
  predicate AncestorsAreDirectories(fs: Tree, p: Path) {
    forall k :: 0 < k < |p| ==> IsDirectory(fs, p[..k])
  }

  /** Every non-empty prefix of `d`, `d` included, is a directory. */
  predicate DirectoriesAlong(fs: Tree, d: Path) {
    forall k :: 0 < k <= |d| ==> IsDirectory(fs, d[..k])
  }

  /** `p` is not the root and hangs below directories. */
  predicate Placed(fs: Tree, p: Path) {
    |p| > 0 && AncestorsAreDirectories(fs, p)
  }

  /** A tree is well formed when every stored entry is placed. */
  predicate WellFormed(fs: Tree) {
    forall p :: p in fs ==> Placed(fs, p)
  }

  /** `fs2` keeps every entry of `fs` unchanged. */
  predicate Keeps(fs: Tree, fs2: Tree) {
    forall q :: q in fs ==> q in fs2 && fs2[q] == fs[q]
  }

  /** Every entry `fs2` has that `fs` lacks is `p` or one of its ancestors. */
  predicate AddsOnlyAlong(fs: Tree, fs2: Tree, p: Path) {
    forall q :: q in fs2 && q !in fs ==> Along(q, p)
  }

  /** `q` is `p` or one of its ancestors. */
  predicate Along(q: Path, p: Path) {
    |q| <= |p| && q == p[..|q|]
  }

  /** Some non-empty prefix of `d` (possibly `d` itself) is a file. */
  predicate FileOnTheWay(fs: Tree, d: Path) {
    exists k :: 0 < k <= |d| && IsFile(fs, d[..k])
  }

  /** Where every prefix is a directory, none is a file. */
  lemma DirectoriesAlongHasNoFile(fs: Tree, d: Path)
    requires DirectoriesAlong(fs, d)
    ensures !FileOnTheWay(fs, d)
  {
  }

  /** `d.mkdir(parents=True, exist_ok=True)`: creates the missing directories
      from the top down; an existing file anywhere on the way is an error. */
  function MakeDirs(fs: Tree, d: Path): (r: Result<Tree>)
    requires WellFormed(fs)
    ensures r.Ok? <==> !FileOnTheWay(fs, d)
    ensures r.Ok? ==> WellFormed(r.value)
    ensures r.Ok? ==> DirectoriesAlong(r.value, d)
    ensures r.Ok? ==> Keeps(fs, r.value) && AddsOnlyAlong(fs, r.value, d)
    ensures r.Err? ==> r.error.NotADirectory? && IsFile(fs, r.error.at)
    ensures DirectoriesAlong(fs, d) ==> r == Ok(fs)
    decreases |d|
  {
    if |d| == 0 then Ok(fs)
    else if d in fs then
      if fs[d].Directory? then
        ExistingDirectory(fs, d);
        Ok(fs)

      else
        assert d[..|d|] == d;
        Err(NotADirectory(d))
    else
      assert d[..|d|] == d;
      match MakeDirs(fs, Parent(d))
      case Err(e) =>
        FileOnTheWayBelow(fs, d);
        Err(e)
      case Ok(fs1) =>
        ExtendDirectories(fs, fs1, d);
        Ok(fs1[d := Directory])
  }

  /** An existing directory in a well-formed tree has only directories above it. */
  lemma ExistingDirectory(fs: Tree, d: Path)
    requires WellFormed(fs) && |d| > 0 && d in fs && fs[d].Directory?
    ensures DirectoriesAlong(fs, d)
    ensures !FileOnTheWay(fs, d)
  {
    assert AncestorsAreDirectories(fs, d);
    assert d[..|d|] == d;
  }

  /** A file above the parent of `d` is also above `d`. */
  lemma FileOnTheWayBelow(fs: Tree, d: Path)
    requires |d| > 0
    ensures FileOnTheWay(fs, Parent(d)) ==> FileOnTheWay(fs, d)
  {
    if FileOnTheWay(fs, Parent(d)) {
      var k :| 0 < k <= |Parent(d)| && IsFile(fs, Parent(d)[..k]);
      assert Parent(d)[..k] == d[..k];
    }
  }

  /** Adding the missing directory `d` once its parent chain exists. */
  lemma ExtendDirectories(fs: Tree, fs1: Tree, d: Path)
    requires WellFormed(fs) && WellFormed(fs1) && |d| > 0 && d !in fs
    requires !FileOnTheWay(fs, Parent(d))
    requires DirectoriesAlong(fs1, Parent(d))
    requires Keeps(fs, fs1) && AddsOnlyAlong(fs, fs1, Parent(d))
    ensures !FileOnTheWay(fs, d)
    ensures WellFormed(fs1[d := Directory])
    ensures DirectoriesAlong(fs1[d := Directory], d)
    ensures Keeps(fs, fs1[d := Directory]) && AddsOnlyAlong(fs, fs1[d := Directory], d)
  {
    var up := Parent(d);
    var fs2 := fs1[d := Directory];
    assert forall k :: 0 < k <= |up| ==> up[..k] == d[..k];
    assert d[..|d|] == d;
    assert d !in fs1;
    forall k | 0 < k <= |d| ensures IsDirectory(fs2, d[..k]) {
      if k < |d| {
        assert IsDirectory(fs1, up[..k]);
      }
    }
    forall p | p in fs2 ensures Placed(fs2, p) {
      if p != d {
        assert AncestorsAreDirectories(fs1, p);
      }
    }
    forall q | q in fs2 && q !in fs ensures Along(q, d) {
      if q != d {
        assert q == up[..|q|];
      }
    }
  }

  /** A new entry can be created at `p` when its parent is a directory. */
  predicate CanCreate(fs: Tree, p: Path) {
    |p| > 0 && IsDirectory(fs, Parent(p))
  }

  /** What `open(p, O_CREAT)` raises when the parent is not a directory. */
  function CreateError(fs: Tree, p: Path): FsError {
    if IsFile(fs, Parent(p)) then NotADirectory(Parent(p)) else NotFound(Parent(p))
  }

  /** `p.touch(exist_ok=True)`: any existing entry, a directory included, is
      left alone; otherwise an empty file appears if the parent exists. */
  function Touch(fs: Tree, p: Path): (r: Result<Tree>)
    requires WellFormed(fs)
    ensures r.Ok? <==> |p| == 0 || p in fs || CanCreate(fs, p)
    ensures r.Ok? ==> WellFormed(r.value) && Keeps(fs, r.value)
    ensures r.Ok? ==> r.value.Keys == fs.Keys + (if |p| == 0 then {} else {p})
    ensures r.Ok? && p !in fs && |p| > 0 ==> r.value[p] == File([])
  {
    if |p| == 0 || p in fs then Ok(fs)
    else if CanCreate(fs, p) then
      var fs2 := fs[p := File([])];
      assert WellFormed(fs2) by {
        forall q | q in fs2 ensures Placed(fs2, q) {
          if q == p {
            forall k | 0 < k < |p| ensures IsDirectory(fs2, p[..k]) {
              var up := Parent(p);
              assert p[..k] == up[..k];
              if k < |up| {
                assert AncestorsAreDirectories(fs, up);
              } else {
                assert up[..k] == up;
              }
            }
          }
        }
      }
      Ok(fs2)
    else Err(CreateError(fs, p))
  }

  /** `p.read_text()` */
  function ReadText(fs: Tree, p: Path): (r: Result<string>)
    ensures r.Ok? <==> IsFile(fs, p)
    ensures r.Ok? ==> fs[p] == File(r.value)
  {
    if p in fs then
      match fs[p]
      case File(c) => Ok(c)
      case Directory => Err(IsADirectory(p))
    else if |p| == 0 then Err(IsADirectory(p))
    else Err(NotFound(p))
  }

  /** `p.write_text(text)`: replaces the contents of a file, or creates it
      when the parent is a directory; a directory cannot be written. */
  function WriteText(fs: Tree, p: Path, text: string): (r: Result<Tree>)
    requires WellFormed(fs)
    ensures r.Ok? <==> IsFile(fs, p) || (p !in fs && CanCreate(fs, p))
    ensures r.Ok? ==> WellFormed(r.value) && r.value.Keys == fs.Keys + {p}
    ensures r.Ok? ==> r.value[p] == File(text)
    ensures r.Ok? ==> forall q :: q in fs && q != p ==> r.value[q] == fs[q]
  {
    if IsFile(fs, p) then
      Rewrite(fs, p, text);
      Ok(fs[p := File(text)])
    else if p in fs || |p| == 0 then Err(IsADirectory(p))
    else
      match Touch(fs, p)
      case Ok(fs1) =>
        Rewrite(fs1, p, text);
        Ok(fs1[p := File(text)])
      case Err(e) => Err(e)
  }

  /** Giving an existing file new contents keeps the tree well formed. */
  lemma Rewrite(fs: Tree, p: Path, text: string)
    requires WellFormed(fs) && IsFile(fs, p)
    ensures WellFormed(fs[p := File(text)])
  {
    var fs2 := fs[p := File(text)];
    forall q | q in fs2 ensures Placed(fs2, q) {
      assert Placed(fs, q);
      forall k | 0 < k < |q| ensures IsDirectory(fs2, q[..k]) {
        assert IsDirectory(fs, q[..k]);
      }
    }
  }
}

=== FILE: orchestrator.dfy ===
/** `ElementFilesCreator` of createcomponent.py: an element together with the
    creators registered for it, run in registration order. */
module Orchestrator {
  import Text
  import opened Paths
  import opened FileSystem
  import opened Elements
  import opened Creators

  datatype FilesCreator = FilesCreator(element: Element, creators: seq<Kind>)

  /** `ElementFilesCreator(element)`: no creators yet. */
  function NewFilesCreator(e: Element): FilesCreator {
    FilesCreator(e, [])
  }

  /** `register_file_creators`: appends one creator per kind, in argument order,
      after the ones already registered. */
  function Register(fc: FilesCreator, kinds: seq<Kind>): (r: FilesCreator)
    ensures r.element == fc.element
    ensures |r.creators| == |fc.creators| + |kinds|
    ensures r.creators[..|fc.creators|] == fc.creators
    ensures forall i :: 0 <= i < |kinds| ==> r.creators[|fc.creators| + i] == kinds[i]
  {
    FilesCreator(fc.element, fc.creators + kinds)
  }

  /** The creators `main` registers, in its order. */
  const StandardKinds: seq<Kind> := [Tsx, Css, Index]

  /** How a run of the registered creators ends: every creator succeeded,
      or the creator at index `failed` raised `error`. Nothing is rolled
      back, so in both cases `tree` is the file system the creators that
      succeeded left behind. */
  datatype RunResult = Done(tree: Tree) | Stopped(error: FsError, failed: nat, tree: Tree)

  /** The target of each creator, in registration order. */
  function Targets(e: Element, kinds: seq<Kind>): (ts: seq<Path>)
    ensures |ts| == |kinds|
    ensures forall j :: 0 <= j < |kinds| ==> ts[j] == TargetPath(kinds[j], e)
  {
    seq(|kinds|, j requires 0 <= j < |kinds| => TargetPath(kinds[j], e))
  }

  /** Runs the creators from index `i` on, one after the other; the first
      failure stops the run and keeps what the earlier creators did. */
  function RunFrom(v: Variant, e: Element, kinds: seq<Kind>, i: nat, fs: Tree): (r: RunResult)
    requires WellFormed(fs) && '/' !in e.name && i <= |kinds|
    ensures r.Stopped? ==> i <= r.failed < |kinds|
    decreases |kinds| - i
  {
    if i == |kinds| then Done(fs)
    else
      var step := Create(v, kinds[i], e, fs);
      if step.Err? then Stopped(step.error, i, fs)
      else RunFrom(v, e, kinds, i + 1, step.value)
  }

  /** A run never removes an entry. */
  lemma {:induction false} RunFromGrows(v: Variant, e: Element, kinds: seq<Kind>, i: nat, fs: Tree)
    requires WellFormed(fs) && '/' !in e.name && i <= |kinds|
    ensures fs.Keys <= RunFrom(v, e, kinds, i, fs).tree.Keys
    decreases |kinds| - i
  {
    if i == |kinds| {
      RunFromEnd(v, e, kinds, fs);
    } else if Create(v, kinds[i], e, fs).Err? {
      RunFromStops(v, e, kinds, i, fs);
    } else {
      var out := Create(v, kinds[i], e, fs).value;
      RunAllStep(v, e, kinds, i, fs, out);
      RunFromGrows(v, e, kinds, i + 1, out);
    }
  }

  /** Every tree a run leaves is well formed. */
  lemma {:induction false} RunFromWellFormed(v: Variant, e: Element, kinds: seq<Kind>, i: nat, fs: Tree)
    requires WellFormed(fs) && '/' !in e.name && i <= |kinds|
    ensures WellFormed(RunFrom(v, e, kinds, i, fs).tree)
    decreases |kinds| - i
  {
    if i == |kinds| {
      RunFromEnd(v, e, kinds, fs);
    } else if Create(v, kinds[i], e, fs).Err? {
      RunFromStops(v, e, kinds, i, fs);
    } else {
      var out := Create(v, kinds[i], e, fs).value;
      RunAllStep(v, e, kinds, i, fs, out);
      RunFromWellFormed(v, e, kinds, i + 1, out);
    }
  }

  /** Entries that are not the target of a creator run from index `i` on
      are never changed, whether the run is done or stopped. */
  lemma {:induction false} RunFromFrame(v: Variant, e: Element, kinds: seq<Kind>, i: nat, fs: Tree)
    requires WellFormed(fs) && '/' !in e.name && i <= |kinds|
    ensures var r := RunFrom(v, e, kinds, i, fs);
      forall q :: q in fs && q !in Targets(e, kinds)[i..] ==> q in r.tree && r.tree[q] == fs[q]
    decreases |kinds| - i
  {
    if i == |kinds| {
      RunFromEnd(v, e, kinds, fs);
    } else if Create(v, kinds[i], e, fs).Err? {
      RunFromStops(v, e, kinds, i, fs);
    } else {
      var out := Create(v, kinds[i], e, fs).value;
      CreateFrame(v, kinds[i], e, fs);
      TargetsFrom(e, kinds, i);
      RunAllStep(v, e, kinds, i, fs, out);
      RunFromFrame(v, e, kinds, i + 1, out);
    }
  }

  /** A run that is done has put the target of every creator from index
      `i` on in place. */
  lemma {:induction false} RunFromDone(v: Variant, e: Element, kinds: seq<Kind>, i: nat, fs: Tree)
    requires WellFormed(fs) && '/' !in e.name && i <= |kinds|
    ensures var r := RunFrom(v, e, kinds, i, fs);
      r.Done? ==> forall j :: i <= j < |kinds| ==> TargetPath(kinds[j], e) in r.tree
    decreases |kinds| - i
  {
    if i < |kinds| && Create(v, kinds[i], e, fs).Err? {
      RunFromStops(v, e, kinds, i, fs);
    } else if i < |kinds| {
      var out := Create(v, kinds[i], e, fs).value;
      var r := RunFrom(v, e, kinds, i + 1, out);
      RunAllStep(v, e, kinds, i, fs, out);
      RunFromDone(v, e, kinds, i + 1, out);
      RunFromGrows(v, e, kinds, i + 1, out);
      if r.Done? {
        forall j | i <= j < |kinds| ensures TargetPath(kinds[j], e) in r.tree {
          if j == i {
            assert TargetPath(kinds[i], e) in out && out.Keys <= r.tree.Keys;
          }
        }
      }
    }
  }

  /** A run that stops does so at a creator that fails on the tree its
      predecessors left, and every creator before it from index `i` on has
      its target in place. */
  lemma {:induction false} RunFromStopped(v: Variant, e: Element, kinds: seq<Kind>, i: nat, fs: Tree)
    requires WellFormed(fs) && '/' !in e.name && i <= |kinds|
    ensures var r := RunFrom(v, e, kinds, i, fs);
      && (r.Stopped? ==> CreateFails(kinds[r.failed], r.tree, TargetPath(kinds[r.failed], e)))
      && (r.Stopped? ==> forall j :: i <= j < r.failed ==> TargetPath(kinds[j], e) in r.tree)
    decreases |kinds| - i
  {
    if i == |kinds| {
      RunFromEnd(v, e, kinds, fs);
    } else if Create(v, kinds[i], e, fs).Err? {
      RunFromStops(v, e, kinds, i, fs);
    } else {
      var out := Create(v, kinds[i], e, fs).value;
      var r := RunFrom(v, e, kinds, i + 1, out);
      RunAllStep(v, e, kinds, i, fs, out);
      RunFromStopped(v, e, kinds, i + 1, out);
      RunFromGrows(v, e, kinds, i + 1, out);
      if r.Stopped? {
        forall j | i <= j < r.failed ensures TargetPath(kinds[j], e) in r.tree {
          if j == i {
            assert TargetPath(kinds[i], e) in out && out.Keys <= r.tree.Keys;
          }
        }
      }
    }
  }

  /** `ElementFilesCreator.create` as an ordered fold over all registered
      creators. */
  function RunAll(v: Variant, e: Element, kinds: seq<Kind>, fs: Tree): RunResult
    requires WellFormed(fs) && '/' !in e.name
  {
    RunFrom(v, e, kinds, 0, fs)
  }

  /** The whole run: it leaves a well-formed tree that keeps every entry and
      changes only the creators' targets; when it is done every target
      exists, and when it stops, the creator it names fails on the tree the
      earlier creators left and their targets exist in it. */
  lemma RunAllOutcome(v: Variant, e: Element, kinds: seq<Kind>, fs: Tree)
    requires WellFormed(fs) && '/' !in e.name
    ensures var r := RunAll(v, e, kinds, fs);
      && WellFormed(r.tree) && fs.Keys <= r.tree.Keys
      && (forall q :: q in fs && q !in Targets(e, kinds) ==> r.tree[q] == fs[q])
      && (r.Done? ==> forall j :: 0 <= j < |kinds| ==> TargetPath(kinds[j], e) in r.tree)
      && (r.Stopped? ==> CreateFails(kinds[r.failed], r.tree, TargetPath(kinds[r.failed], e)))
      && (r.Stopped? ==> forall j :: 0 <= j < r.failed ==> TargetPath(kinds[j], e) in r.tree)
  {
    RunFromWellFormed(v, e, kinds, 0, fs);
    RunFromGrows(v, e, kinds, 0, fs);
    RunFromFrame(v, e, kinds, 0, fs);
    assert Targets(e, kinds)[0..] == Targets(e, kinds);
    RunFromDone(v, e, kinds, 0, fs);
    RunFromStopped(v, e, kinds, 0, fs);
  }

  /** The targets from index `i` on: the target of creator `i`, then the
      targets after it. */
  lemma TargetsFrom(e: Element, kinds: seq<Kind>, i: nat)
    requires i < |kinds|
    ensures Targets(e, kinds)[i..] == [TargetPath(kinds[i], e)] + Targets(e, kinds)[i + 1..]
  {
  }

  /** `ElementFilesCreator.create`: the loop over the registered creators. */
  method CreateAll(v: Variant, fc: FilesCreator, fs: Tree) returns (r: RunResult)
    requires WellFormed(fs) && '/' !in fc.element.name
    ensures r == RunAll(v, fc.element, fc.creators, fs)
  {
    var e := fc.element;
    var kinds := fc.creators;
    var current := fs;
    var i := 0;
    while i < |kinds|
      invariant 0 <= i <= |kinds|
      invariant WellFormed(current)
      invariant RunFrom(v, e, kinds, i, current) == RunAll(v, e, kinds, fs)
    {
      var step := Create(v, kinds[i], e, current);
      if step.Err? {
        RunFromStops(v, e, kinds, i, current);
        return Stopped(step.error, i, current);
      }
      RunAllStep(v, e, kinds, i, current, step.value);
      current := step.value;
      i := i + 1;
    }
    RunFromEnd(v, e, kinds, current);
    return Done(current);
  }

  /** `get_relative_filenames`: one displayed name per registered creator. */
  function RelativeFilenames(fc: FilesCreator, src: Path): (names: seq<string>)
    ensures |names| == |fc.creators|
  {
    seq(|fc.creators|, i requires 0 <= i < |fc.creators| =>
      RelativeName(src, TargetPath(fc.creators[i], fc.element)))
  }

  /** For an element below the source directory, each displayed name is the
      element's directory relative to the source directory followed by the
      creator's file name, in registration order. */
  lemma RelativeFilenamesUnderSrc(fc: FilesCreator, src: Path, rest: Path)
    requires |src| >= 1 && '/' !in fc.element.name
    requires fc.element.fullPath == src + rest
    ensures forall i :: 0 <= i < |fc.creators| ==>
      RelativeFilenames(fc, src)[i] == Text.Join(rest + [FileName(fc.creators[i], fc.element.name)], '/')
  {
    forall i | 0 <= i < |fc.creators|
      ensures RelativeFilenames(fc, src)[i] == Text.Join(rest + [FileName(fc.creators[i], fc.element.name)], '/')
    {
      var f := FileName(fc.creators[i], fc.element.name);
      assert TargetPath(fc.creators[i], fc.element) == src + (rest + [f]);
      RelativeNameUnder(src, rest + [f]);
    }
  }

  /** The three files of a new element named `name` in directory `dir`:
      the component template, an empty stylesheet and the variant's barrel
      line. */
  predicate NewElementFiles(v: Variant, tree: Tree, dir: Path, name: string) {
    && dir + [name + ".tsx"] in tree && tree[dir + [name + ".tsx"]] == File(TsxContent(name))
    && dir + [name + ".module.css"] in tree && tree[dir + [name + ".module.css"]] == File([])
    && dir + ["index.ts"] in tree && tree[dir + ["index.ts"]] == File(BarrelLine(v, name))
  }

  /** In a directory where none of the three files exists yet, `main`'s
      creators produce the component, an empty stylesheet and the barrel
      line: `export {default} from "./<name>":` as written, with `;` when
      corrected. */
  lemma StandardSetOnFreshDirectory(v: Variant, e: Element, fs: Tree) returns (out: Tree)
    requires WellFormed(fs) && '/' !in e.name
    requires !FileOnTheWay(fs, e.fullPath)
    requires e.fullPath + [e.name + ".tsx"] !in fs
    requires e.fullPath + [e.name + ".module.css"] !in fs
    requires e.fullPath + ["index.ts"] !in fs
    ensures RunAll(v, e, StandardKinds, fs) == Done(out)
    ensures NewElementFiles(v, out, e.fullPath, e.name)
  {
    var fs1, fs2, fs3 := FreshFiles(v, e, fs);
    FirstTwoSteps(v, e, fs, fs1, fs2);
    RunAllStep(v, e, StandardKinds, 2, fs2, fs3);
    RunFromEnd(v, e, StandardKinds, fs3);
    out := fs3;
  }

  /** The three creators one after the other on a directory without the
      element's files, and the files they leave. */
  lemma FreshFiles(v: Variant, e: Element, fs: Tree) returns (fs1: Tree, fs2: Tree, fs3: Tree)
    requires WellFormed(fs) && '/' !in e.name
    requires !FileOnTheWay(fs, e.fullPath)
    requires e.fullPath + [e.name + ".tsx"] !in fs
    requires e.fullPath + [e.name + ".module.css"] !in fs
    requires e.fullPath + ["index.ts"] !in fs
    ensures WellFormed(fs1) && WellFormed(fs2)
    ensures Create(v, Tsx, e, fs) == Ok(fs1)
    ensures Create(v, Css, e, fs1) == Ok(fs2)
    ensures Create(v, Index, e, fs2) == Ok(fs3)
    ensures NewElementFiles(v, fs3, e.fullPath, e.name)
  {
    fs1 := FreshComponent(v, e, fs);
    fs2 := FreshStylesheet(v, e, fs1);
    fs3 := FreshBarrel(v, e, fs2);
  }

  /** Where the component and stylesheet are new but `index.ts` is a
      directory, the first two creators succeed and the barrel creator
      raises on reading it; the run stops there and the two new files
      stay. */
  lemma BarrelDirectoryStopsRun(v: Variant, e: Element, fs: Tree)
    requires WellFormed(fs) && '/' !in e.name
    requires e.fullPath + [e.name + ".tsx"] !in fs
    requires e.fullPath + [e.name + ".module.css"] !in fs
    requires e.fullPath + ["index.ts"] in fs && fs[e.fullPath + ["index.ts"]] == Directory
    ensures var r := RunAll(v, e, StandardKinds, fs);
      && r == Stopped(IsADirectory(e.fullPath + ["index.ts"]), 2, r.tree)
      && e.fullPath + [e.name + ".tsx"] in r.tree
      && r.tree[e.fullPath + [e.name + ".tsx"]] == File(TsxContent(e.name))
      && e.fullPath + [e.name + ".module.css"] in r.tree
      && r.tree[e.fullPath + [e.name + ".module.css"]] == File([])
  {
    var p := TargetPath(Index, e);
    assert p == e.fullPath + ["index.ts"];
    assert TargetPath(Tsx, e) == e.fullPath + [e.name + ".tsx"];
    assert TargetPath(Css, e) == e.fullPath + [e.name + ".module.css"];
    ParentChainOfEntry(fs, p);
    DirectoriesAlongHasNoFile(fs, e.fullPath);
    var fs1 := FreshComponent(v, e, fs);
    var fs2 := FreshStylesheet(v, e, fs1);
    FirstTwoSteps(v, e, fs, fs1, fs2);
    DirectoryTargetStops(v, e, fs2);
    assert RunAll(v, e, StandardKinds, fs) == Stopped(IsADirectory(p), 2, fs2);
  }

  /** When the component and stylesheet creators succeed, `main`'s run goes
      on with the barrel creator on the tree they left. */
  lemma FirstTwoSteps(v: Variant, e: Element, fs: Tree, fs1: Tree, fs2: Tree)
    requires WellFormed(fs) && '/' !in e.name
    requires Create(v, Tsx, e, fs) == Ok(fs1) && Create(v, Css, e, fs1) == Ok(fs2)
    ensures WellFormed(fs2)
    ensures RunAll(v, e, StandardKinds, fs) == RunFrom(v, e, StandardKinds, 2, fs2)
  {
    RunAllStep(v, e, StandardKinds, 0, fs, fs1);
    RunAllStep(v, e, StandardKinds, 1, fs1, fs2);
  }

  /** Unfolds one successful step of the run. */
  lemma RunAllStep(v: Variant, e: Element, kinds: seq<Kind>, i: nat, fs: Tree, out: Tree)
    requires WellFormed(fs) && '/' !in e.name && i < |kinds|
    requires Create(v, kinds[i], e, fs) == Ok(out)
    ensures WellFormed(out)
    ensures RunFrom(v, e, kinds, i, fs) == RunFrom(v, e, kinds, i + 1, out)
  {
  }

  /** A failing creator stops the run at its index, with the tree as it
      found it. */
  lemma RunFromStops(v: Variant, e: Element, kinds: seq<Kind>, i: nat, fs: Tree)
    requires WellFormed(fs) && '/' !in e.name && i < |kinds|
    requires Create(v, kinds[i], e, fs).Err?
    ensures RunFrom(v, e, kinds, i, fs) == Stopped(Create(v, kinds[i], e, fs).error, i, fs)
  {
  }

  /** After the last creator the run is done. */
  lemma RunFromEnd(v: Variant, e: Element, kinds: seq<Kind>, fs: Tree)
    requires WellFormed(fs) && '/' !in e.name
    ensures RunFrom(v, e, kinds, |kinds|, fs) == Done(fs)
  {
  }

  /** The barrel creator on a directory target raises `IsADirectory` when it
      reads it, and the run of `main`'s creators stops at it. */
  lemma DirectoryTargetStops(v: Variant, e: Element, fs: Tree)
    requires WellFormed(fs) && '/' !in e.name && !FileOnTheWay(fs, e.fullPath)
    requires TargetPath(Index, e) in fs && fs[TargetPath(Index, e)] == Directory
    ensures Create(v, Index, e, fs) == Err(IsADirectory(TargetPath(Index, e)))
    ensures RunFrom(v, e, StandardKinds, 2, fs) == Stopped(IsADirectory(TargetPath(Index, e)), 2, fs)
  {
    var p := TargetPath(Index, e);
    ParentChainOfEntry(fs, p);
    assert MakeDirs(fs, Parent(p)) == Ok(fs);
    assert Touch(fs, p) == Ok(fs);
  }

  /** The component creator on a directory without the element's files: it
      writes the template, does not create the stylesheet, and leaves
      whatever is at `index.ts` as it was. */
  lemma FreshComponent(v: Variant, e: Element, fs: Tree) returns (out: Tree)
    requires WellFormed(fs) && '/' !in e.name && !FileOnTheWay(fs, e.fullPath)
    requires TargetPath(Tsx, e) !in fs && TargetPath(Css, e) !in fs
    ensures Create(v, Tsx, e, fs) == Ok(out)
    ensures WellFormed(out) && !FileOnTheWay(out, e.fullPath)
    ensures out[TargetPath(Tsx, e)] == File(TsxContent(e.name))
    ensures TargetPath(Css, e) !in out
    ensures TargetPath(Index, e) in out <==> TargetPath(Index, e) in fs
    ensures TargetPath(Index, e) in fs ==> out[TargetPath(Index, e)] == fs[TargetPath(Index, e)]
  {
    DistinctTargets(e);
    out := Create(v, Tsx, e, fs).value;
    CreateWrites(v, Tsx, e, fs);
    CreateFrame(v, Tsx, e, fs);
    DirectoriesAlongHasNoFile(out, e.fullPath);
  }

  /** The stylesheet creator after the component: an empty file appears,
      and the component and whatever is at `index.ts` stay as they were. */
  lemma FreshStylesheet(v: Variant, e: Element, fs: Tree) returns (out: Tree)
    requires WellFormed(fs) && '/' !in e.name && !FileOnTheWay(fs, e.fullPath)
    requires TargetPath(Tsx, e) in fs && TargetPath(Css, e) !in fs
    ensures Create(v, Css, e, fs) == Ok(out)
    ensures WellFormed(out) && !FileOnTheWay(out, e.fullPath)
    ensures out[TargetPath(Css, e)] == File([])
    ensures out[TargetPath(Tsx, e)] == fs[TargetPath(Tsx, e)]
    ensures TargetPath(Index, e) in out <==> TargetPath(Index, e) in fs
    ensures TargetPath(Index, e) in fs ==> out[TargetPath(Index, e)] == fs[TargetPath(Index, e)]
  {
    DistinctTargets(e);
    out := Create(v, Css, e, fs).value;
    CreateWrites(v, Css, e, fs);
    CreateFrame(v, Css, e, fs);
    DirectoriesAlongHasNoFile(out, e.fullPath);
  }

  /** The barrel creator on a missing index file writes the variant's
      export line and keeps the other two files. */
  lemma FreshBarrel(v: Variant, e: Element, fs: Tree) returns (out: Tree)
    requires WellFormed(fs) && '/' !in e.name && !FileOnTheWay(fs, e.fullPath)
    requires TargetPath(Tsx, e) in fs && TargetPath(Css, e) in fs
    requires TargetPath(Index, e) !in fs
    ensures Create(v, Index, e, fs) == Ok(out)
    ensures out[TargetPath(Index, e)] == File(BarrelLine(v, e.name))
    ensures out[TargetPath(Tsx, e)] == fs[TargetPath(Tsx, e)]
    ensures out[TargetPath(Css, e)] == fs[TargetPath(Css, e)]
  {
    DistinctTargets(e);
    out := Create(v, Index, e, fs).value;
    CreateWrites(v, Index, e, fs);
    CreateFrame(v, Index, e, fs);
  }

  /** The three targets of an element are different files. */
  lemma DistinctTargets(e: Element)
    requires '/' !in e.name
    ensures TargetPath(Tsx, e) != TargetPath(Css, e)
    ensures TargetPath(Tsx, e) != TargetPath(Index, e)
    ensures TargetPath(Css, e) != TargetPath(Index, e)
  {
    var n := |e.fullPath|;
    assert TargetPath(Tsx, e)[n] == e.name + ".tsx";
    assert TargetPath(Css, e)[n] == e.name + ".module.css";
    assert TargetPath(Index, e)[n] == "index.ts";
    assert (e.name + ".tsx")[|e.name| + 1] == 't';
    assert (e.name + ".module.css")[|e.name| + 1] == 'm';
  }
}

=== FILE: paths.dfy ===
/** The slice of `pathlib` the scaffolder uses: joining a path with a string
    (`path / "a/b"`), the parent of a path, and `str(path)` of an absolute
    path. Paths are absolute and already resolved: a path is the sequence of
    its segments below the root `/`, and the root itself is `[]`. */
module Paths {
  import Text

  type Path = seq<string>

  /** A segment as pathlib stores it: non-empty, free of `/`, and not `.`. */
  predicate IsSegment(s: string) {
    |s| > 0 && '/' !in s && s != "."
  }

  predicate Canonical(p: Path) {
    forall i :: 0 <= i < |p| ==> IsSegment(p[i])
  }

  /** pathlib drops empty and `.` parts when it parses a string. */
  function KeepSegments(parts: seq<string>): (r: Path)
    ensures Canonical(r)
    ensures (forall i :: 0 <= i < |parts| ==> IsSegment(parts[i])) ==> r == parts
    ensures forall i :: 0 <= i < |r| ==> r[i] in parts
    decreases |parts|
  {
    if |parts| == 0 then []
    else if IsSegment(parts[0]) then [parts[0]] + KeepSegments(parts[1..])
    else KeepSegments(parts[1..])
  }

  /** No segment is lost: every part that is a segment is kept, so a part
      survives exactly when it is a segment. */
  lemma {:induction false} KeepSegmentsKeepsAll(parts: seq<string>)
    ensures forall i :: 0 <= i < |parts| && IsSegment(parts[i]) ==> parts[i] in KeepSegments(parts)
    decreases |parts|
  {
    if |parts| > 0 {
      KeepSegmentsKeepsAll(parts[1..]);
      assert forall i :: 1 <= i < |parts| ==> parts[i] == parts[1..][i - 1];
    }
  }

  /** A single part is kept exactly when it is a segment. */
  lemma KeepSegmentsOne(x: string)
    ensures KeepSegments([x]) == if IsSegment(x) then [x] else []
  {
    assert [x][1..] == [];
  }

  /** Filtering distributes over concatenation, so together with
      `KeepSegmentsOne` the kept segments are the segment parts in their
      original order and with their original multiplicity. */
  lemma {:induction false} KeepSegmentsAppend(a: seq<string>, b: seq<string>)
    ensures KeepSegments(a + b) == KeepSegments(a) + KeepSegments(b)
    decreases |a|
  {
    if |a| == 0 {
      assert a + b == b;
    } else {
      assert (a + b)[0] == a[0];
      assert (a + b)[1..] == a[1..] + b;
      KeepSegmentsAppend(a[1..], b);
    }
  }

  /** `base / s`: the string is split on `/`; a leading `/` makes it absolute,
      so it replaces `base` instead of extending it. */
  function Slash(base: Path, s: string): (r: Path)
    ensures Canonical(base) ==> Canonical(r)
    ensures (|s| == 0 || s[0] != '/') ==> |base| <= |r| && r[..|base|] == base
    ensures |s| > 0 && s[0] == '/' ==> r == KeepSegments(Text.Split(s, '/'))
  {
    var kept := KeepSegments(Text.Split(s, '/'));
    if |s| > 0 && s[0] == '/' then kept else base + kept
  }

  /** Joining a single well-formed segment appends exactly that segment. */
  lemma SlashSegment(base: Path, s: string)
    requires IsSegment(s)
    ensures Slash(base, s) == base + [s]
  {
    Text.SplitNoSeparator(s, '/');
  }

  /** Joining `a/b/c` built from well-formed segments appends those segments. */
  lemma SlashSegments(base: Path, parts: seq<string>)
    requires |parts| >= 1 && Canonical(parts)
    ensures Slash(base, Text.Join(parts, '/')) == base + parts
  {
    var s := Text.Join(parts, '/');
    Text.SplitJoin(parts, '/');
    if |parts| > 1 {
      assert s == parts[0] + ['/'] + Text.Join(parts[1..], '/');
      assert s[0] == parts[0][0];
    }
  }

  /** `path.parent`; the root is its own parent. */
  function Parent(p: Path): (r: Path)
    ensures |p| > 0 ==> p == r + [p[|p| - 1]]
    ensures |p| == 0 ==> r == []
  {
    if |p| == 0 then [] else p[..|p| - 1]
  }

  /** `/a/b/c` without the distinction of the root. */
  function Components(p: Path): string
    decreases |p|
  {
    if |p| == 0 then [] else ['/'] + p[0] + Components(p[1..])
  }

  /** `str(path)` for an absolute path. */
  function Render(p: Path): (r: string)
    ensures |r| > 0 && r[0] == '/'
  {
    if |p| == 0 then "/" else Components(p)
  }

  /** Below the root, `str(path)` is `/` followed by the segments joined by
      `/`. */
  lemma RenderIsJoin(p: Path)
    requires |p| >= 1
    ensures Render(p) == ['/'] + Text.Join(p, '/')
  {
    ComponentsAreJoin(p);
  }

  lemma {:induction false} ComponentsAppend(a: Path, b: Path)
    ensures Components(a + b) == Components(a) + Components(b)
    decreases |a|
  {
    if |a| > 0 {
      assert (a + b)[1..] == a[1..] + b;
      ComponentsAppend(a[1..], b);
    } else {
      assert a + b == b;
    }
  }

  lemma {:induction false} ComponentsAreJoin(p: Path)
    requires |p| >= 1
    ensures Components(p) == ['/'] + Text.Join(p, '/')
    decreases |p|
  {
    if |p| > 1 {
      ComponentsAreJoin(p[1..]);
    }
  }

  /** The relative file name the scaffolder displays: `str(path)` with its
      first `len(str(src)) + 1` characters dropped. */
  function RelativeName(src: Path, p: Path): string {
    Text.Drop(Render(p), |Render(src)| + 1)
  }

  /** For a path below a non-root source directory, the displayed name is the
      remaining segments joined by `/`. */
  lemma RelativeNameUnder(src: Path, rest: Path)
    requires |src| >= 1
    ensures RelativeName(src, src + rest) == Text.Join(rest, '/')
  {
    ComponentsAppend(src, rest);
    var whole := Render(src + rest);
    assert whole == Components(src) + Components(rest);
    if |rest| >= 1 {
      ComponentsAreJoin(rest);
      assert whole == Components(src) + ['/'] + Text.Join(rest, '/');
      assert whole[|Components(src)| + 1..] == Text.Join(rest, '/');
    } else {
      assert whole == Components(src);
    }
  }
}

=== FILE: prompts.dfy ===
/** The console dialogue of createcomponent.py (`AskParams`) and its entry
    point `main`. The user's input is the sequence of lines still to be read;
    every question consumes lines from its front, and running out of lines
    is the end of input that `input()` reports. */
module Prompts {
  import Text
  import opened Paths
  import opened FileSystem
  import opened Elements
  import opened Creators
  import opened Orchestrator

  /** The answer to a question and the lines left after it, or the end of
      input before an acceptable answer arrived. */
  datatype Asked<T> = Answer(value: T, rest: seq<string>) | EndOfInput

  /** The `while True` loop of the two menus: read lines until `classify`
      accepts one. */
  function AskUntil<T>(classify: string -> Text.Option<T>, lines: seq<string>): (r: Asked<T>)
    ensures r.Answer? ==> |r.rest| < |lines| && r.rest == lines[|lines| - |r.rest|..]
    decreases |lines|
  {
    if |lines| == 0 then EndOfInput
    else
      match classify(lines[0])
      case Some(v) => Answer(v, lines[1..])
      case None => AskUntil(classify, lines[1..])
  }

  /** The menu answers with the first line it understands, and every line
      before that one was not understood; when the input runs out, no line
      was understood. */
  lemma {:induction false} AskUntilAnswers<T>(classify: string -> Text.Option<T>, lines: seq<string>)
    ensures var r := AskUntil(classify, lines);
      r.Answer? ==> var k := |lines| - |r.rest| - 1;
        && classify(lines[k]) == Text.Some(r.value)
        && forall i :: 0 <= i < k ==> classify(lines[i]).None?
    ensures AskUntil(classify, lines).EndOfInput? ==>
      forall i :: 0 <= i < |lines| ==> classify(lines[i]).None?
    decreases |lines|
  {
    if |lines| > 0 && classify(lines[0]).None? {
      var tail := lines[1..];
      AskUntilAnswers(classify, tail);
      assert AskUntil(classify, lines) == AskUntil(classify, tail);
      forall i | 0 < i < |lines| ensures lines[i] == tail[i - 1] {
      }
    }
  }

  /** Lines the menu does not understand are skipped without effect. */
  lemma {:induction false} AskUntilSkips<T>(classify: string -> Text.Option<T>, bad: seq<string>, lines: seq<string>)
    requires forall i :: 0 <= i < |bad| ==> classify(bad[i]).None?
    ensures AskUntil(classify, bad + lines) == AskUntil(classify, lines)
    decreases |bad|
  {
    if |bad| > 0 {
      assert (bad + lines)[0] == bad[0];
      assert (bad + lines)[1..] == bad[1..] + lines;
      AskUntilSkips(classify, bad[1..], lines);
    } else {
      assert bad + lines == lines;
    }
  }

  /** The base-folder menu reads its answer stripped and lower-cased. */
  function ClassifyBase(line: string): (r: Text.Option<Category>)
    ensures r == Text.Some(Components) <==> Text.Strip(line) == "c" || Text.Strip(line) == "C"
    ensures r == Text.Some(Pages) <==> Text.Strip(line) == "p" || Text.Strip(line) == "P"
  {
    Text.LowerIsLetter(Text.Strip(line), 'c');
    Text.LowerIsLetter(Text.Strip(line), 'p');
    var answer := Text.Lower(Text.Strip(line));
    if answer == "c" then Text.Some(Components)
    else if answer == "p" then Text.Some(Pages)
    else Text.None
  }

  /** `_ask_base_folder`: the first line that `ClassifyBase` understands
      (one that strips to `c`, `C`, `p` or `P`) chooses the folder; every
      line before it is asked again. */
  function AskBaseFolder(lines: seq<string>): (r: Asked<Category>)
    ensures r.Answer? ==> |r.rest| < |lines| && r.rest == lines[|lines| - |r.rest|..]
    ensures r.Answer? ==> var k := |lines| - |r.rest| - 1;
      && ClassifyBase(lines[k]) == Text.Some(r.value)
      && forall i :: 0 <= i < k ==> ClassifyBase(lines[i]).None?
    ensures r.EndOfInput? ==> forall i :: 0 <= i < |lines| ==> ClassifyBase(lines[i]).None?
  {
    AskUntilAnswers(ClassifyBase, lines);
    AskUntil(ClassifyBase, lines)
  }

  /** `_ask_element`: the next line, stripped; any answer is taken. */
  function AskElement(lines: seq<string>): (r: Asked<string>)
    ensures r.Answer? <==> |lines| > 0
    ensures r.Answer? ==> r.value == Text.Strip(lines[0]) && r.rest == lines[1..]
  {
    if |lines| == 0 then EndOfInput else Answer(Text.Strip(lines[0]), lines[1..])
  }

  /** `AskParams.ask`: the base folder, then the element below it, parsed
      against the `src` directory next to the script. */
  function AskParams(scriptDir: Path, lines: seq<string>): (r: Asked<Element>)
    ensures r.Answer? ==> '/' !in r.value.name
    ensures r.Answer? ==> |r.rest| < |lines|
  {
    match AskBaseFolder(lines)
    case EndOfInput => EndOfInput
    case Answer(base, rest) =>
      match AskElement(rest)
      case EndOfInput => EndOfInput
      case Answer(elementStr, rest2) =>
        Answer(ParseAsElement(SrcDir(scriptDir), elementStr, base), rest2)
  }

  /** The confirmation as `ask_ok` is written: the strip and lower-casing
      apply to the prompt text, so the raw line is compared and only `y`
      and the empty line proceed and only `n` cancels. */
  function ConfirmAnswerAsWritten(line: string): (r: Text.Option<bool>)
    ensures r == Text.Some(true) <==> line == "y" || line == []
    ensures r == Text.Some(false) <==> line == "n"
  {
    if line == "y" || line == "" then Text.Some(true)
    else if line == "n" then Text.Some(false)
    else Text.None
  }

  /** `ask_ok` as written: it answers at the first line that is exactly
      `y`, empty or `n`, and only `n` cancels. */
  function AskOkAsWritten(lines: seq<string>): (r: Asked<bool>)
    ensures r.Answer? ==> |r.rest| < |lines| && r.rest == lines[|lines| - |r.rest|..]
    ensures r.Answer? ==> var k := |lines| - |r.rest| - 1;
      && lines[k] in ["y", "", "n"]
      && (r.value <==> lines[k] != "n")
      && forall i :: 0 <= i < k ==> lines[i] !in ["y", "", "n"]
    ensures r.EndOfInput? ==> forall i :: 0 <= i < |lines| ==> lines[i] !in ["y", "", "n"]
  {
    AskUntilAnswers(ConfirmAnswerAsWritten, lines);
    AskUntil(ConfirmAnswerAsWritten, lines)
  }

  /** As written, the upper-case answers the `[Y]/N` prompt advertises are
      not understood: the question is simply asked again. */
  lemma UpperCaseAnswersReprompt(lines: seq<string>)
    ensures AskOkAsWritten(["Y"] + lines) == AskOkAsWritten(lines)
    ensures AskOkAsWritten(["N"] + lines) == AskOkAsWritten(lines)
  {
    AskUntilSkips(ConfirmAnswerAsWritten, ["Y"], lines);
    AskUntilSkips(ConfirmAnswerAsWritten, ["N"], lines);
  }

  /** The confirmation as the prompt and the base-folder menu evidently mean
      it, and as the `Corrected` dialogue uses it: the answer is stripped
      and lower-cased before it is compared. */
  function ConfirmAnswer(line: string): (r: Text.Option<bool>)
    ensures r == Text.Some(true) <==>
      Text.Strip(line) == "y" || Text.Strip(line) == "Y" || Text.Strip(line) == []
    ensures r == Text.Some(false) <==> Text.Strip(line) == "n" || Text.Strip(line) == "N"
  {
    Text.LowerIsLetter(Text.Strip(line), 'y');
    Text.LowerIsLetter(Text.Strip(line), 'n');
    ConfirmAnswerAsWritten(Text.Lower(Text.Strip(line)))
  }

  /** `ask_ok` as evidently meant: it answers at the first line that
      `ConfirmAnswer` understands (one that strips to `y`, `Y`, nothing, `n`
      or `N`); `true` goes ahead and `false` cancels. */
  function AskOk(lines: seq<string>): (r: Asked<bool>)
    ensures r.Answer? ==> |r.rest| < |lines| && r.rest == lines[|lines| - |r.rest|..]
    ensures r.Answer? ==> var k := |lines| - |r.rest| - 1;
      && ConfirmAnswer(lines[k]) == Text.Some(r.value)
      && forall i :: 0 <= i < k ==> ConfirmAnswer(lines[i]).None?
    ensures r.EndOfInput? ==> forall i :: 0 <= i < |lines| ==> ConfirmAnswer(lines[i]).None?
  {
    AskUntilAnswers(ConfirmAnswer, lines);
    AskUntil(ConfirmAnswer, lines)
  }

  /** How a line answers the confirmation in each variant. */
  function Confirm(v: Variant, line: string): Text.Option<bool> {
    if v == AsWritten then ConfirmAnswerAsWritten(line) else ConfirmAnswer(line)
  }

  /** The confirmation question in each variant. */
  function AskConfirm(v: Variant, lines: seq<string>): Asked<bool> {
    if v == AsWritten then AskOkAsWritten(lines) else AskOk(lines)
  }

  /** The one-letter answers: as written only the lower-case letters are
      understood; corrected, `y` and `Y` go ahead and `n` and `N` cancel. */
  lemma LetterAnswer(c: char)
    requires c == 'y' || c == 'Y' || c == 'n' || c == 'N'
    ensures Confirm(Corrected, [c]) == Text.Some(c == 'y' || c == 'Y')
    ensures Confirm(AsWritten, [c]) ==
      (if c == 'y' then Text.Some(true) else if c == 'n' then Text.Some(false) else Text.None)
  {
    Text.StripSingle(c);
  }

  /** The displayed relative names of `main`'s three creators. */
  function Shown(scriptDir: Path, e: Element): seq<string> {
    RelativeFilenames(Register(NewFilesCreator(e), StandardKinds), SrcDir(scriptDir))
  }

  /** How a run of the script ends. The tree is the file system afterwards;
      when a creator fails, it holds what that creator and the ones before
      it had done. */
  datatype Outcome =
    | Created(tree: Tree)
    | Cancelled(tree: Tree)
    | InputEnded(tree: Tree)
    | Failed(error: FsError, tree: Tree)

  /** `main`: ask, register the three creators, confirm, create. Only a
      confirmed run touches the file system; it then leaves a well-formed
      tree that keeps every entry, and either all three targets exist or
      one creator failed on the tree the others left. */
  function Run(v: Variant, scriptDir: Path, lines: seq<string>, fs: Tree): (r: Outcome)
    requires WellFormed(fs)
    ensures r.Cancelled? || r.InputEnded? ==> r.tree == fs
    ensures r.Created? || r.Failed? ==> WellFormed(r.tree) && fs.Keys <= r.tree.Keys
    ensures r.Created? || r.Failed? ==> AskParams(scriptDir, lines).Answer?
    ensures r.Created? ==>
      forall k :: k in StandardKinds ==> TargetPath(k, AskParams(scriptDir, lines).value) in r.tree
    ensures r.Failed? ==> var e := AskParams(scriptDir, lines).value;
      exists k :: k in StandardKinds && CreateFails(k, r.tree, TargetPath(k, e))
  {
    match AskParams(scriptDir, lines)
    case EndOfInput => InputEnded(fs)
    case Answer(e, rest) => ConfirmThenCreate(v, e, rest, fs)
  }

  /** The second half of `main`, once the element is known: register the
      three creators, ask for confirmation on the remaining input, and
      create only when confirmed. */
  function ConfirmThenCreate(v: Variant, e: Element, lines: seq<string>, fs: Tree): (r: Outcome)
    requires WellFormed(fs) && '/' !in e.name
    ensures r.Cancelled? || r.InputEnded? ==> r.tree == fs
    ensures r.Created? || r.Failed? ==> WellFormed(r.tree) && fs.Keys <= r.tree.Keys
    ensures r.Created? || r.Failed? ==> AskConfirm(v, lines).Answer? && AskConfirm(v, lines).value
    ensures r.Created? ==> forall k :: k in StandardKinds ==> TargetPath(k, e) in r.tree
    ensures r.Failed? ==> exists k :: k in StandardKinds && CreateFails(k, r.tree, TargetPath(k, e))
  {
    var creator := Register(NewFilesCreator(e), StandardKinds);
    match AskConfirm(v, lines)
    case EndOfInput => InputEnded(fs)
    case Answer(go, _) =>
      if !go then Cancelled(fs)
      else
        assert creator == FilesCreator(e, StandardKinds);
        CreateFiles(v, creator, fs)
  }

  /** `creator.create()` once confirmed: the registered creators run in
      order, and the outcome carries the tree they leave, in which only
      their targets may have changed. Either every target exists, or some
      creator fails on that tree. */
  function CreateFiles(v: Variant, fc: FilesCreator, fs: Tree): (r: Outcome)
    requires WellFormed(fs) && '/' !in fc.element.name
    ensures r.Created? || r.Failed?
    ensures WellFormed(r.tree) && fs.Keys <= r.tree.Keys
    ensures forall q :: q in fs && q !in Targets(fc.element, fc.creators) ==> r.tree[q] == fs[q]
    ensures r.Created? ==>
      forall j :: 0 <= j < |fc.creators| ==> TargetPath(fc.creators[j], fc.element) in r.tree
    ensures r.Failed? ==>
      exists j :: 0 <= j < |fc.creators| && CreateFails(fc.creators[j], r.tree, TargetPath(fc.creators[j], fc.element))
  {
    var e := fc.element;
    var kinds := fc.creators;
    RunFromWellFormed(v, e, kinds, 0, fs);
    RunFromGrows(v, e, kinds, 0, fs);
    RunFromFrame(v, e, kinds, 0, fs);
    assert Targets(e, kinds)[0..] == Targets(e, kinds);
    RunFromDone(v, e, kinds, 0, fs);
    RunFromStopped(v, e, kinds, 0, fs);
    RunOutcome(RunAll(v, e, kinds, fs))
  }

  /** Joining three path parts spelled out. */
  lemma JoinThree(a: string, b: string, c: string)
    ensures Text.Join([a, b, c], '/') == a + "/" + b + "/" + c
  {
    assert [a, b, c][1..] == [b, c];
    assert [b, c][1..] == [c];
  }

  /** The confirmation lists the three files below the element's directory,
      relative to the source directory, in registration order. */
  lemma ShownOfElement(scriptDir: Path, e: Element, rest: Path)
    requires e.fullPath == SrcDir(scriptDir) + rest && '/' !in e.name
    ensures Shown(scriptDir, e) ==
      [ Text.Join(rest + [FileName(Tsx, e.name)], '/'),
        Text.Join(rest + [FileName(Css, e.name)], '/'),
        Text.Join(rest + [FileName(Index, e.name)], '/') ]
  {
    var names := Shown(scriptDir, e);
    var want := [ Text.Join(rest + [FileName(Tsx, e.name)], '/'),
                  Text.Join(rest + [FileName(Css, e.name)], '/'),
                  Text.Join(rest + [FileName(Index, e.name)], '/') ];
    forall i | 0 <= i < 3 ensures |names| == 3 && names[i] == want[i] {
      ShownEntry(scriptDir, e, rest, i);
    }
  }

  /** One line of the confirmation listing. */
  lemma ShownEntry(scriptDir: Path, e: Element, rest: Path, i: nat)
    requires e.fullPath == SrcDir(scriptDir) + rest && '/' !in e.name && i < 3
    ensures |Shown(scriptDir, e)| == 3
    ensures Shown(scriptDir, e)[i] == Text.Join(rest + [FileName(StandardKinds[i], e.name)], '/')
  {
    var src := SrcDir(scriptDir);
    var f := FileName(StandardKinds[i], e.name);
    assert Register(NewFilesCreator(e), StandardKinds).creators == StandardKinds;
    assert TargetPath(StandardKinds[i], e) == src + (rest + [f]);
    RelativeNameUnder(src, rest + [f]);
  }

  /** For an element two directories below the source directory, the
      listing spells out both directories. */
  lemma ShownInDir(scriptDir: Path, e: Element, a: string, b: string)
    requires e.fullPath == SrcDir(scriptDir) + [a, b] && '/' !in e.name
    ensures Shown(scriptDir, e) ==
      [ a + "/" + b + "/" + (e.name + ".tsx"),
        a + "/" + b + "/" + (e.name + ".module.css"),
        a + "/" + b + "/" + "index.ts" ]
  {
    ShownOfElement(scriptDir, e, [a, b]);
    JoinThree(a, b, e.name + ".tsx");
    JoinThree(a, b, e.name + ".module.css");
    JoinThree(a, b, "index.ts");
    assert [a, b] + [e.name + ".tsx"] == [a, b, e.name + ".tsx"];
    assert [a, b] + [e.name + ".module.css"] == [a, b, e.name + ".module.css"];
    assert [a, b] + ["index.ts"] == [a, b, "index.ts"];
  }

  /** For an element given as one plain name, the confirmation lists
      `<folder>/<name>/<name>.tsx`, `<folder>/<name>/<name>.module.css` and
      `<folder>/<name>/index.ts`, in that order. */
  lemma ShownForName(scriptDir: Path, name: string, base: Category)
    requires IsSegment(name)
    ensures var folder := FolderName(base);
      Shown(scriptDir, ParseAsElement(SrcDir(scriptDir), name, base)) ==
        [ folder + "/" + name + "/" + (name + ".tsx"),
          folder + "/" + name + "/" + (name + ".module.css"),
          folder + "/" + name + "/" + "index.ts" ]
  {
    var folder := FolderName(base);
    SingleElement(SrcDir(scriptDir), name, base);
    var e := ParseAsElement(SrcDir(scriptDir), name, base);
    assert e.fullPath == SrcDir(scriptDir) + [folder, name] && e.name == name;
    ShownInDir(scriptDir, e, folder, name);
  }

  /** For `<dir>/<name>`, the files go to `<folder>/<dir>` and the listing
      shows `<folder>/<dir>/<name>.tsx`, `<folder>/<dir>/<name>.module.css`
      and `<folder>/<dir>/index.ts`. */
  lemma ShownForNested(scriptDir: Path, dir: string, name: string, base: Category)
    requires IsSegment(dir) && IsSegment(name)
    ensures var folder := FolderName(base);
      Shown(scriptDir, ParseAsElement(SrcDir(scriptDir), dir + "/" + name, base)) ==
        [ folder + "/" + dir + "/" + (name + ".tsx"),
          folder + "/" + dir + "/" + (name + ".module.css"),
          folder + "/" + dir + "/" + "index.ts" ]
  {
    var folder := FolderName(base);
    var e := NestedShape(SrcDir(scriptDir), dir, name, base);
    ShownInDir(scriptDir, e, folder, dir);
  }

  /** `<dir>/<name>` parses to the element `name` in `<folder>/<dir>`. */
  lemma NestedShape(src: Path, dir: string, name: string, base: Category) returns (e: Element)
    requires IsSegment(dir) && IsSegment(name)
    ensures e == ParseAsElement(src, dir + "/" + name, base)
    ensures e.fullPath == src + [FolderName(base), dir] && e.name == name
  {
    var parts := [dir, name];
    assert Text.Join(parts, '/') == dir + "/" + name by {
      assert parts[1..] == [name];
    }
    Text.SplitJoin(parts, '/');
    assert Segments(dir + "/" + name) == parts;
    assert parts[..1] == [dir];
    NestedElement(src, dir + "/" + name, base);
    e := ParseAsElement(src, dir + "/" + name, base);
    assert e == Element(src + [FolderName(base)] + [dir], name);
    assert src + [FolderName(base)] + [dir] == src + [FolderName(base), dir];
  }

  /** The first two lines, once the base folder is understood, describe the
      element: the second line is stripped and parsed below that folder. */
  lemma AskParamsAnswers(scriptDir: Path, base: string, element: string, more: seq<string>)
    requires ClassifyBase(base).Some?
    ensures AskParams(scriptDir, [base, element] + more) ==
      Answer(ParseAsElement(SrcDir(scriptDir), Text.Strip(element), ClassifyBase(base).value), more)
  {
    var lines := [base, element] + more;
    assert lines[0] == base;
    assert lines[1..][0] == element;
    assert lines[1..][1..] == more;
  }

  /** Answering the confirmation negatively (`n` as written, `n` or `N`
      corrected), after any number of answers it does not understand, ends
      the run with the file system untouched. */
  lemma NoCreatesNothing(v: Variant, scriptDir: Path, base: string, element: string,
                         unclear: seq<string>, no: string, more: seq<string>, fs: Tree)
    requires WellFormed(fs)
    requires ClassifyBase(base).Some?
    requires forall i :: 0 <= i < |unclear| ==> Confirm(v, unclear[i]).None?
    requires Confirm(v, no) == Text.Some(false)
    ensures Run(v, scriptDir, [base, element] + unclear + [no] + more, fs) == Cancelled(fs)
  {
    var answers := unclear + [no] + more;
    var lines := [base, element] + unclear + [no] + more;
    RegroupAfterTwo(base, element, unclear, [no], more);
    AskParamsAnswers(scriptDir, base, element, answers);
    CancelAfterUnclear(v, unclear, no, more);
    CancelledRun(v, scriptDir, lines, fs);
  }

  /** Unclear answers are asked again until a negative one cancels. */
  lemma CancelAfterUnclear(v: Variant, unclear: seq<string>, no: string, more: seq<string>)
    requires forall i :: 0 <= i < |unclear| ==> Confirm(v, unclear[i]).None?
    requires Confirm(v, no) == Text.Some(false)
    ensures AskConfirm(v, unclear + [no] + more) == Answer(false, more)
  {
    if v == AsWritten {
      AnswerAfterUnclear(ConfirmAnswerAsWritten, unclear, no, more);
    } else {
      AnswerAfterUnclear(ConfirmAnswer, unclear, no, more);
    }
  }

  /** The menu answers with the first line it understands and leaves the
      lines after it. */
  lemma {:induction false} AnswerAfterUnclear<T>(classify: string -> Text.Option<T>, unclear: seq<string>,
                                                line: string, more: seq<string>)
    requires forall i :: 0 <= i < |unclear| ==> classify(unclear[i]).None?
    requires classify(line).Some?
    ensures AskUntil(classify, unclear + [line] + more) == Answer(classify(line).value, more)
    decreases |unclear|
  {
    var lines := unclear + [line] + more;
    if |unclear| == 0 {
      assert lines[0] == line && lines[1..] == more;
    } else {
      assert lines[0] == unclear[0];
      assert lines[1..] == unclear[1..] + [line] + more;
      AnswerAfterUnclear(classify, unclear[1..], line, more);
    }
  }

  /** A run whose confirmation is answered negatively changes nothing. */
  lemma CancelledRun(v: Variant, scriptDir: Path, lines: seq<string>, fs: Tree)
    requires WellFormed(fs)
    requires AskParams(scriptDir, lines).Answer?
    requires var ok := AskConfirm(v, AskParams(scriptDir, lines).rest); ok.Answer? && !ok.value
    ensures Run(v, scriptDir, lines, fs) == Cancelled(fs)
  {
  }

  /** What a confirmed run ends with: the creators' tree, as created or as
      left by the failing creator. */
  function RunOutcome(created: RunResult): (r: Outcome)
    ensures r.tree == created.tree
    ensures r.Created? <==> created.Done?
    ensures r.Failed? <==> created.Stopped?
    ensures r.Failed? ==> r.error == created.error
  {
    if created.Stopped? then Failed(created.error, created.tree) else Created(created.tree)
  }

  /** Answering the confirmation positively (`y` or a blank line as
      written; `y`, `Y` or a blank line corrected) goes on to run all three
      creators on the element the first two answers describe. */
  lemma YesRunsCreators(v: Variant, scriptDir: Path, base: string, element: string, yes: string,
                        more: seq<string>, fs: Tree)
    requires WellFormed(fs)
    requires ClassifyBase(base).Some?
    requires Confirm(v, yes) == Text.Some(true)
    ensures var e := ParseAsElement(SrcDir(scriptDir), Text.Strip(element), ClassifyBase(base).value);
      Run(v, scriptDir, [base, element, yes] + more, fs) == RunOutcome(RunAll(v, e, StandardKinds, fs))
  {
    var lines := [base, element, yes] + more;
    Regroup(base, element, yes, more);
    AskParamsAnswers(scriptDir, base, element, [yes] + more);
    if v == AsWritten {
      AnswerFirst(ConfirmAnswerAsWritten, yes, more);
    } else {
      AnswerFirst(ConfirmAnswer, yes, more);
    }
    ConfirmedRun(v, scriptDir, lines, fs);
  }

  /** Three answers followed by more, seen as two answers followed by the rest. */
  lemma Regroup(a: string, b: string, c: string, more: seq<string>)
    ensures [a, b, c] + more == [a, b] + ([c] + more)
  {
  }

  /** Two answers, then some lines, one more line and the rest, seen as two
      answers followed by everything after them. */
  lemma RegroupAfterTwo(a: string, b: string, mid: seq<string>, line: seq<string>, more: seq<string>)
    ensures [a, b] + mid + line + more == [a, b] + (mid + line + more)
  {
  }

  /** A line the menu understands at once answers it. */
  lemma AnswerFirst<T>(classify: string -> Text.Option<T>, line: string, more: seq<string>)
    requires classify(line).Some?
    ensures AskUntil(classify, [line] + more) == Answer(classify(line).value, more)
  {
    var lines := [line] + more;
    assert lines[0] == line && lines[1..] == more;
  }

  /** A run whose confirmation is answered positively runs the creators on
      the element asked for. */
  lemma ConfirmedRun(v: Variant, scriptDir: Path, lines: seq<string>, fs: Tree)
    requires WellFormed(fs)
    requires AskParams(scriptDir, lines).Answer?
    requires var ok := AskConfirm(v, AskParams(scriptDir, lines).rest); ok.Answer? && ok.value
    ensures Run(v, scriptDir, lines, fs) ==
      RunOutcome(RunAll(v, AskParams(scriptDir, lines).value, StandardKinds, fs))
  {
    var e := AskParams(scriptDir, lines).value;
    assert Register(NewFilesCreator(e), StandardKinds) == FilesCreator(e, StandardKinds);
  }
  /** The input `Y` then `n`: as written, `Y` is asked again and `n`
      cancels, so nothing is created; corrected, `Y` confirms and the
      creators run. */
  lemma UpperCaseYesThenNo(scriptDir: Path, base: string, element: string, more: seq<string>, fs: Tree)
    requires WellFormed(fs)
    requires ClassifyBase(base).Some?
    ensures Run(AsWritten, scriptDir, [base, element, "Y", "n"] + more, fs) == Cancelled(fs)
    ensures var e := ParseAsElement(SrcDir(scriptDir), Text.Strip(element), ClassifyBase(base).value);
      Run(Corrected, scriptDir, [base, element, "Y", "n"] + more, fs) ==
        RunOutcome(RunAll(Corrected, e, StandardKinds, fs))
  {
    LetterAnswer('Y');
    LetterAnswer('n');
    RegroupFour(base, element, "Y", "n", more);
    NoCreatesNothing(AsWritten, scriptDir, base, element, ["Y"], "n", more, fs);
    YesRunsCreators(Corrected, scriptDir, base, element, "Y", ["n"] + more, fs);
  }

  /** Four answers followed by more, seen as two answers, one, one and the
      rest, or as three answers followed by the rest. */
  lemma RegroupFour(a: string, b: string, c: string, d: string, more: seq<string>)
    ensures [a, b, c, d] + more == [a, b] + [c] + [d] + more
    ensures [a, b, c, d] + more == [a, b, c] + ([d] + more)
  {
  }

  /** End to end, in both variants: choosing a folder, naming a new element
      with one plain name and confirming creates, in a directory where none
      of the files exists yet, `<name>.tsx` holding the component template,
      an empty `<name>.module.css` and an `index.ts` holding the variant's
      export line, all in `src/<folder>/<name>`. */
  lemma NewElementEndToEnd(v: Variant, scriptDir: Path, base: string, element: string, name: string,
                           yes: string, more: seq<string>, fs: Tree)
    requires WellFormed(fs)
    requires ClassifyBase(base).Some? && IsSegment(name) && Text.Strip(element) == name
    requires Confirm(v, yes) == Text.Some(true)
    requires var dir := SrcDir(scriptDir) + [FolderName(ClassifyBase(base).value), name];
      && !FileOnTheWay(fs, dir)
      && dir + [name + ".tsx"] !in fs && dir + [name + ".module.css"] !in fs && dir + ["index.ts"] !in fs
    ensures var r := Run(v, scriptDir, [base, element, yes] + more, fs);
      && r.Created?
      && NewElementFiles(v, r.tree, SrcDir(scriptDir) + [FolderName(ClassifyBase(base).value), name], name)
  {
    var category := ClassifyBase(base).value;
    var dir := SrcDir(scriptDir) + [FolderName(category), name];
    SingleElement(SrcDir(scriptDir), name, category);
    var e := ParseAsElement(SrcDir(scriptDir), name, category);
    assert e == Element(dir, name);
    var out := StandardSetOnFreshDirectory(v, e, fs);
    YesRunsCreators(v, scriptDir, base, element, yes, more, fs);
  }
}

=== FILE: text.dfy ===
/** Python string primitives the scaffolder and the bot rely on: `str.isspace`,
    `str.strip`, ASCII `str.lower`, `str.split(sep)`, `sep.join(...)` and the
    clamped slice `s[k:]`. */
module Text {

  /** A Python value that may be `None`. */
  datatype Option<T> = None | Some(value: T)

  /** Python's `str.isspace()` for one character. */
  predicate IsSpace(c: char) {
    || c == ' '
    || ('\t' <= c <= '\r')
    || ('\U{1c}' <= c <= '\U{1f}')
    || c == '\U{85}' || c == '\U{a0}' || c == '\U{1680}'
    || ('\U{2000}' <= c <= '\U{200a}')
    || c == '\U{2028}' || c == '\U{2029}' || c == '\U{202f}' || c == '\U{205f}' || c == '\U{3000}'
  }

  /** True iff `s.strip()` is the empty (falsy) string. */
  predicate Blank(s: string) {
    forall i :: 0 <= i < |s| ==> IsSpace(s[i])
  }

  /** How many whitespace characters `s` starts with. */
  function LeadingSpace(s: string): (n: nat)
    ensures n <= |s|
    ensures forall i :: 0 <= i < n ==> IsSpace(s[i])
    ensures n == |s| || !IsSpace(s[n])
    decreases |s|
  {
    if |s| > 0 && IsSpace(s[0]) then
      var t := s[1..];
      var m := LeadingSpace(t);
      assert forall i :: 0 < i <= m ==> s[i] == t[i - 1];
      m + 1
    else 0
  }

  /** Where the whitespace `s` ends with begins. */
  function TrailingStart(s: string): (n: nat)
    ensures n <= |s|
    ensures forall i :: n <= i < |s| ==> IsSpace(s[i])
    ensures n == 0 || !IsSpace(s[n - 1])
    decreases |s|
  {
    if |s| > 0 && IsSpace(s[|s| - 1]) then TrailingStart(s[..|s| - 1]) else |s|
  }

  /** The end of the trailing whitespace is the only position with nothing
      but whitespace after it and no whitespace right before it. */
  lemma TrailingStartUnique(s: string, n: nat)
    requires n <= |s|
    requires forall i :: n <= i < |s| ==> IsSpace(s[i])
    requires n == 0 || !IsSpace(s[n - 1])
    ensures TrailingStart(s) == n
  {
  }

  /** `s.lstrip()` */
  function StripLeft(s: string): (r: string)
    ensures |r| <= |s| && r == s[|s| - |r|..]
    ensures Blank(s[..|s| - |r|])
    ensures r == [] || !IsSpace(r[0])
  {
    s[LeadingSpace(s)..]
  }

  /** `s.rstrip()` */
  function StripRight(s: string): (r: string)
    ensures |r| <= |s| && r == s[..|r|]
    ensures Blank(s[|r|..])
    ensures r == [] || !IsSpace(r[|r| - 1])
  {
    s[..TrailingStart(s)]
  }

  /** `s.strip()` */
  function Strip(s: string): string {
    StripRight(StripLeft(s))
  }

  /** `s.strip()` is what lies between a whitespace prefix and a whitespace
      suffix of `s`, and it neither starts nor ends with whitespace. */
  lemma StripSlice(s: string)
    ensures var r := Strip(s); var k := |s| - |StripLeft(s)|;
      && k + |r| <= |s| && r == s[k..k + |r|]
      && Blank(s[..k]) && Blank(s[k + |r|..])
      && (r == [] || (!IsSpace(r[0]) && !IsSpace(r[|r| - 1])))
  {
    var l := StripLeft(s);
    var k := |s| - |l|;
    var r := StripRight(l);
    SliceOfSuffix(s, k, |r|);
  }

  /** A prefix of a suffix is a slice, and the rest of that suffix is a
      suffix. */
  lemma SliceOfSuffix<T>(s: seq<T>, k: nat, t: nat)
    requires k + t <= |s|
    ensures s[k..][..t] == s[k..k + t]
    ensures s[k..][t..] == s[k + t..]
  {
  }

  /** `s.strip()` is falsy exactly when every character of `s` is whitespace. */
  lemma StripEmptyIffBlank(s: string)
    ensures Strip(s) == [] <==> Blank(s)
  {
    var l := StripLeft(s);
    if Strip(s) == [] {
      assert TrailingStart(l) == 0;
      assert l == [];
      assert s[..|s|] == s;
    }
  }

  /** A lone non-space character is its own strip. */
  lemma StripSingle(c: char)
    requires !IsSpace(c)
    ensures Strip([c]) == [c]
  {
    var s := [c];
    assert LeadingSpace(s) == 0;
    assert StripLeft(s) == s;
    assert TrailingStart(s) == 1;
  }

  /** Stripping trailing whitespace ignores any whitespace tail appended. */
  lemma StripRightBlankTail(a: string, w: string)
    requires Blank(w)
    ensures StripRight(a + w) == StripRight(a)
  {
    var n := TrailingStart(a);
    var s := a + w;
    forall i | n <= i < |s| ensures IsSpace(s[i]) {
      if i >= |a| {
        assert s[i] == w[i - |a|];
      }
    }
    assert n == 0 || s[n - 1] == a[n - 1];
    TrailingStartUnique(s, n);
    assert s[..n] == a[..n];
  }

  /** ASCII lower-casing of one character (`str.lower` on ASCII input). */
  function LowerChar(c: char): char {
    if 'A' <= c <= 'Z' then (c as int + 32) as char else c
  }

  /** `s.lower()` restricted to ASCII letters. */
  function Lower(s: string): string {
    seq(|s|, i requires 0 <= i < |s| => LowerChar(s[i]))
  }

  /** A single-character answer lower-cases to `[c]` exactly when it is `c`
      or its upper-case form. */
  lemma LowerIsLetter(s: string, c: char)
    requires 'a' <= c <= 'z'
    ensures Lower(s) == [c] <==> s == [c] || s == [(c as int - 32) as char]
  {
    if Lower(s) == [c] {
      assert |s| == 1;
      assert Lower(s)[0] == LowerChar(s[0]) == c;
      assert s == [s[0]];
    }
  }

  /** `s[k:]` for a non-negative `k`: Python clamps the start to the length. */
  function Drop(s: string, k: nat): (r: string)
    ensures k <= |s| ==> s == s[..k] + r
    ensures k >= |s| ==> r == []
  {
    if k <= |s| then s[k..] else []
  }

  /** `"".join(pieces)` */
  function Concat(pieces: seq<string>): string
    decreases |pieces|
  {
    if |pieces| == 0 then [] else Concat(pieces[..|pieces| - 1]) + pieces[|pieces| - 1]
  }

  /** The concatenation starts with the whole first piece. */
  lemma {:induction false} ConcatStartsWithFirst(pieces: seq<string>)
    requires |pieces| > 0
    ensures |pieces[0]| <= |Concat(pieces)| && Concat(pieces)[..|pieces[0]|] == pieces[0]
    decreases |pieces|
  {
    if |pieces| > 1 {
      ConcatStartsWithFirst(pieces[..|pieces| - 1]);
    }
  }

  /** `sep.join(parts)` */
  function Join(parts: seq<string>, sep: char): (r: string)
    ensures |parts| == 1 ==> r == parts[0]
    decreases |parts|
  {
    if |parts| == 0 then []
    else if |parts| == 1 then parts[0]
    else parts[0] + [sep] + Join(parts[1..], sep)
  }

  /** `s.split(sep)` for a one-character separator: always at least one part,
      no part contains the separator, and joining the parts gives `s` back. */
  function Split(s: string, sep: char): (parts: seq<string>)
    ensures |parts| >= 1
    ensures forall i :: 0 <= i < |parts| ==> sep !in parts[i]
    ensures Join(parts, sep) == s
    decreases |s|
  {
    if |s| == 0 then [[]]
    else
      var rest := Split(s[1..], sep);
      if s[0] == sep then
        assert [s[0]] + s[1..] == s;
        [[]] + rest
      else
        var parts := [[s[0]] + rest[0]] + rest[1..];
        assert parts[1..] == rest[1..];
        assert Join(parts, sep) == s by {
          if |rest| == 1 {
            assert [s[0]] + s[1..] == s;
          } else {
            assert Join(rest, sep) == rest[0] + [sep] + Join(rest[1..], sep);
            assert [s[0]] + s[1..] == s;
          }
        }
        parts
  }

  /** A string free of the separator splits into itself alone. */
  lemma {:induction false} SplitNoSeparator(s: string, sep: char)
    requires sep !in s
    ensures Split(s, sep) == [s]
    decreases |s|
  {
    if |s| > 0 {
      SplitNoSeparator(s[1..], sep);
    }
  }

  /** Splitting `p + sep + t`, where `p` is free of the separator, yields `p`
      followed by the parts of `t`. */
  lemma {:induction false} SplitAfterPart(p: string, sep: char, t: string)
    requires sep !in p
    ensures Split(p + [sep] + t, sep) == [p] + Split(t, sep)
    decreases |p|
  {
    if |p| == 0 {
      assert (p + [sep] + t)[1..] == t;
    } else {
      assert (p + [sep] + t)[1..] == p[1..] + [sep] + t;
      SplitAfterPart(p[1..], sep, t);
      assert [p[0]] + p[1..] == p;
    }
  }

  /** Round trip in the other direction: separator-free parts survive a
      `join` followed by a `split`. */
  lemma {:induction false} SplitJoin(parts: seq<string>, sep: char)
    requires |parts| >= 1
    requires forall i :: 0 <= i < |parts| ==> sep !in parts[i]
    ensures Split(Join(parts, sep), sep) == parts
    decreases |parts|
  {
    if |parts| == 1 {
      SplitNoSeparator(parts[0], sep);
    } else {
      SplitJoin(parts[1..], sep);
      SplitAfterPart(parts[0], sep, Join(parts[1..], sep));
      assert [parts[0]] + parts[1..] == parts;
    }
  }

  /** Joined separator-free parts start with the separator exactly when
      there are two or more parts and the first is empty. */
  lemma JoinLeadingSeparator(parts: seq<string>, sep: char)
    requires |parts| >= 1
    requires forall i :: 0 <= i < |parts| ==> sep !in parts[i]
    ensures var r := Join(parts, sep);
      (|r| > 0 && r[0] == sep) <==> (|parts| >= 2 && parts[0] == [])
  {
    if |parts[0]| > 0 {
      assert parts[0][0] in parts[0];
      if |parts| >= 2 {
        assert Join(parts, sep)[0] == parts[0][0];
      }
    }
  }

  /** Joining all but the last part, then the separator and the last part,
      rebuilds the joined string. */
  lemma {:induction false} JoinSnoc(parts: seq<string>, sep: char)
    requires |parts| >= 2
    ensures Join(parts[..|parts| - 1], sep) + [sep] + parts[|parts| - 1] == Join(parts, sep)
    decreases |parts|
  {
    if |parts| > 2 {
      var tail := parts[1..];
      JoinSnoc(tail, sep);
      assert tail[..|tail| - 1] == parts[..|parts| - 1][1..];
      assert tail[|tail| - 1] == parts[|parts| - 1];
    }
  }
}

=== FILE: weather.dfy ===
/** The pure decisions of the weather bot in main_weather_tg_bot.py: the
    compass point named for a wind direction, the `response_result` string
    derived from the weather service's answer, and the `;`-separated lines
    the handlers append to the day's log. */
module Weather {
  import Text

  /** The eight compass points the bot names. */
  datatype Compass =
    | North | NorthEast | East | SouthEast | South | SouthWest | West | NorthWest

  /** The Russian label the bot prints for each point: an adjective in
      `-ый`, starting with `Север` exactly for the three northern points and
      with `Ю` exactly for the three southern ones. */
  function Label(c: Compass): (r: string)
    ensures |r| >= 5 && r[|r| - 2..] == "ый"
    ensures r[0] == 'С' <==> c == North || c == NorthEast || c == NorthWest
    ensures r[0] == 'Ю' <==> c == South || c == SouthEast || c == SouthWest
    ensures r[..5] == "Север" <==> c == North || c == NorthEast || c == NorthWest
  {
    match c
    case North => "Северный"
    case NorthEast => "Северо-Восточный"
    case East => "Восточный"
    case SouthEast => "Юго-Восточный"
    case South => "Южный"
    case SouthWest => "Юго-Западный"
    case West => "Западный"
    case NorthWest => "Северо-Западный"
  }

  /** Different points get different labels. */
  lemma LabelsDistinct(a: Compass, b: Compass)
    ensures Label(a) == Label(b) <==> a == b
  {
  }

  /** The `if`/`elif` chain on `wind_deg`, for whole degrees. Each point
      covers a closed range of degrees; what is below 31 or above 330,
      negative and out-of-range values included, is north. */
  function WindCompass(deg: int): (c: Compass)
    ensures c == North <==> deg <= 30 || 331 <= deg
    ensures c == NorthEast <==> 31 <= deg <= 60
    ensures c == East <==> 61 <= deg <= 120
    ensures c == SouthEast <==> 121 <= deg <= 150
    ensures c == South <==> 151 <= deg <= 210
    ensures c == SouthWest <==> 211 <= deg <= 240
    ensures c == West <==> 241 <= deg <= 300
    ensures c == NorthWest <==> 301 <= deg <= 330
  {
    if deg < 31 then North
    else if deg > 30 && deg < 61 then NorthEast
    else if deg > 60 && deg < 121 then East
    else if deg > 120 && deg < 151 then SouthEast
    else if deg > 150 && deg < 211 then South
    else if deg > 210 && deg < 241 then SouthWest
    else if deg > 240 && deg < 301 then West
    else if deg > 300 && deg < 331 then NorthWest
    else North
  }

  /** The sectors as a table: each entry is the first degree of a point's
      sector, in increasing order; below the first entry it is north. */
  const Boundaries: seq<(int, Compass)> :=
    [(31, NorthEast), (61, East), (121, SouthEast), (151, South),
     (211, SouthWest), (241, West), (301, NorthWest), (331, North)]

  /** The point of the last boundary at or below `deg`, starting from `current`. */
  function SectorFrom(table: seq<(int, Compass)>, deg: int, current: Compass): Compass
    decreases |table|
  {
    if |table| == 0 || deg < table[0].0 then current
    else SectorFrom(table[1..], deg, table[0].1)
  }

  /** The `elif` chain and the sector table name the same point for every degree. */
  lemma WindCompassMatchesTable(deg: int)
    ensures WindCompass(deg) == SectorFrom(Boundaries, deg, North)
  {
  }

  /** Every point is named for some degree, so the table has no dead entry. */
  lemma EveryPointReached(c: Compass)
    ensures exists deg :: 0 <= deg < 360 && WindCompass(deg) == c
  {
    var deg := match c
      case North => 0 case NorthEast => 31 case East => 61 case SouthEast => 121
      case South => 151 case SouthWest => 211 case West => 241 case NorthWest => 301;
    assert WindCompass(deg) == c;
  }

  /** A JSON scalar as the service sends it in `cod`: a string or a number. */
  datatype Scalar = Str(s: string) | Num(n: int)

  /** The fields of the service's answer the bot's result depends on. The
      local time is the already formatted `%d.%m.%Y %H:%M` string. */
  datatype WeatherData = WeatherData(
    cod: Text.Option<Scalar>,
    message: Text.Option<string>,
    hasCoord: bool,
    city: string,
    localTime: string)

  /** How an f-string renders a value that may be `None`. */
  function Show(v: Text.Option<string>): string {
    match v
    case None => "None"
    case Some(s) => s
  }

  /** `response_result` of `get_weather`: the service's message when `cod` is
      the string `"404"`, the city and its local time when coordinates came
      back, and empty otherwise. */
  function ResponseResult(data: WeatherData): (r: string)
    ensures data.cod == Text.Some(Str("404")) ==> r == Show(data.message)
    ensures data.cod != Text.Some(Str("404")) && data.hasCoord ==>
      r == data.city + " (" + data.localTime + ")"
    ensures data.cod != Text.Some(Str("404")) && !data.hasCoord ==> r == ""
  {
    if data.cod.Some? && data.cod.value == Str("404") then Show(data.message)
    else if data.hasCoord then data.city + " (" + data.localTime + ")"
    else ""
  }

  /** The result is empty exactly when the service found nothing to report:
      a string `"404"` with an empty message, or neither that code nor
      coordinates. A city with its time is never empty, nor is a missing
      message, which renders as `None`. */
  lemma ResponseResultEmpty(data: WeatherData)
    ensures ResponseResult(data) == [] <==>
      || (data.cod == Text.Some(Str("404")) && data.message == Text.Some([]))
      || (data.cod != Text.Some(Str("404")) && !data.hasCoord)
  {
    if data.cod != Text.Some(Str("404")) && data.hasCoord {
      assert |ResponseResult(data)| >= 2;
    }
  }

  /** Only the string code counts as "not found": a numeric 404 without
      coordinates leaves the result empty. */
  lemma NumericNotFoundIsSilent(message: Text.Option<string>, city: string, localTime: string)
    ensures ResponseResult(WeatherData(Text.Some(Num(404)), message, false, city, localTime)) == ""
  {
  }

  /** `str(n)` for an integer. */
  function Decimal(n: int): (r: string)
    ensures |r| > 0
    ensures forall i :: 0 <= i < |r| ==> r[i] == '-' || '0' <= r[i] <= '9'
  {
    if n < 0 then "-" + Digits(-n) else Digits(n)
  }

  /** The decimal digits of a natural number, most significant first. */
  function Digits(n: nat): (r: string)
    ensures |r| > 0
    ensures forall i :: 0 <= i < |r| ==> '0' <= r[i] <= '9'
    ensures n > 0 ==> r[0] != '0'
    decreases n
  {
    if n < 10 then [('0' as int + n) as char]
    else Digits(n / 10) + [('0' as int + n % 10) as char]
  }

  /** The value of a string of decimal digits. */
  function DigitsValue(s: string): nat
    requires forall i :: 0 <= i < |s| ==> '0' <= s[i] <= '9'
    decreases |s|
  {
    if |s| == 0 then 0
    else DigitsValue(s[..|s| - 1]) * 10 + (s[|s| - 1] as int - '0' as int)
  }

  /** Reading the digits back gives the number: `int(str(n)) == n`. */
  lemma {:induction false} DigitsRoundTrip(n: nat)
    ensures DigitsValue(Digits(n)) == n
    decreases n
  {
    if n >= 10 {
      DigitsRoundTrip(n / 10);
      var d := Digits(n);
      assert d[..|d| - 1] == Digits(n / 10);
    }
  }

  /** The user a Telegram message comes from; the last name may be absent. */
  datatype User = User(id: int, firstName: string, lastName: Text.Option<string>)

  /** The fields every log line starts with: the time stamp, the user id and
      the user's first and last name separated by a space. */
  function Head(stamp: string, user: User): seq<string> {
    [stamp, Decimal(user.id), user.firstName + " " + Show(user.lastName)]
  }

  /** Five `;`-separated fields followed by a newline. */
  function Record(fields: seq<string>): string {
    Text.Join(fields, ';') + "\n"
  }

  /** Joining five fields spelled out. */
  lemma JoinFive(a: string, b: string, c: string, d: string, e: string)
    ensures Text.Join([a, b, c, d, e], ';') == a + ";" + b + ";" + c + ";" + d + ";" + e
  {
    assert [a, b, c, d, e][1..] == [b, c, d, e];
    assert [b, c, d, e][1..] == [c, d, e];
    assert [c, d, e][1..] == [d, e];
    assert [d, e][1..] == [e];
    assert Text.Join([d, e], ';') == d + ";" + e;
    assert Text.Join([c, d, e], ';') == c + ";" + (d + ";" + e);
    assert Text.Join([b, c, d, e], ';') == b + ";" + (c + ";" + (d + ";" + e));
    assert Text.Join([a, b, c, d, e], ';') == a + ";" + (b + ";" + (c + ";" + (d + ";" + e)));
  }

  /** The line `start_command` logs for `/start` and `/help`; it ends in
      `;`, so its last field is empty. */
  function StartLine(stamp: string, user: User, text: string): (line: string)
    ensures line == Record(Head(stamp, user) + ["command=" + text, ""])
  {
    var name := user.firstName + " " + Show(user.lastName);
    JoinFive(stamp, Decimal(user.id), name, "command=" + text, "");
    assert Head(stamp, user) + ["command=" + text, ""] == [stamp, Decimal(user.id), name, "command=" + text, ""];
    stamp + ";" + Decimal(user.id) + ";" + user.firstName + " " + Show(user.lastName) + ";"
      + "command=" + text + ";\n"
  }

  /** The line `get_weather` logs for a message: after the handled answer
      the last field is `result=<result>`, after an exception it is
      `Exception=<error>`. */
  function MessageLine(stamp: string, user: User, text: string, last: string): (line: string)
    ensures line == Record(Head(stamp, user) + ["message.text=" + text, last])
  {
    var name := user.firstName + " " + Show(user.lastName);
    JoinFive(stamp, Decimal(user.id), name, "message.text=" + text, last);
    assert Head(stamp, user) + ["message.text=" + text, last] == [stamp, Decimal(user.id), name, "message.text=" + text, last];
    stamp + ";" + Decimal(user.id) + ";" + user.firstName + " " + Show(user.lastName) + ";"
      + "message.text=" + text + ";" + last + "\n"
  }

  /** A record without its newline splits back into its fields when none of
      them contains `;`. */
  lemma RecordFields(fields: seq<string>)
    requires |fields| >= 1
    requires forall i :: 0 <= i < |fields| ==> ';' !in fields[i]
    ensures var r := Record(fields); |r| > 0 && Text.Split(r[..|r| - 1], ';') == fields
  {
    Text.SplitJoin(fields, ';');
    var r := Record(fields);
    assert r[..|r| - 1] == Text.Join(fields, ';');
  }

  /** What the weather handler did with the request: the service answered
      (the answer was handled and replied to) or something raised. */
  datatype Handled = Answered(data: WeatherData) | Raised(error: string)

  /** The line `get_weather` appends to the log for one message: it starts
      with the time stamp and its `;`, and ends with `;result=` and the
      result, or `;Exception=` and the error, followed by a newline. */
  function WeatherLog(stamp: string, user: User, text: string, handled: Handled): (line: string)
    ensures |line| > |stamp| && line[..|stamp| + 1] == stamp + ";"
    ensures var last := LastField(handled);
      |line| >= |last| + 2 && line[|line| - |last| - 2..] == ";" + last + "\n"
  {
    MessageLineEnds(stamp, user, text, LastField(handled));
    MessageLine(stamp, user, text, LastField(handled))
  }

  /** A message line starts with the time stamp and ends with the last
      field and the newline. */
  lemma MessageLineEnds(stamp: string, user: User, text: string, last: string)
    ensures var line := MessageLine(stamp, user, text, last);
      && |line| > |stamp| && line[..|stamp| + 1] == stamp + ";"
      && |line| >= |last| + 2 && line[|line| - |last| - 2..] == ";" + last + "\n"
  {
    var line := MessageLine(stamp, user, text, last);
    var middle := Decimal(user.id) + ";" + user.firstName + " " + Show(user.lastName) + ";"
      + "message.text=" + text;
    var front := stamp + ";" + middle;
    assert line == front + (";" + last + "\n");
    assert front == (stamp + ";") + middle;
  }

  /** The last field of the weather line. */
  function LastField(handled: Handled): string {
    match handled
    case Answered(data) => "result=" + ResponseResult(data)
    case Raised(error) => "Exception=" + error
  }

  /** Reading the log back: when the time stamp, the names, the message text
      and the answer's strings are free of `;`, the line splits into the
      stamp, the user id, the full name, the message text and the result. */
  lemma WeatherLogReadsBack(stamp: string, user: User, text: string, data: WeatherData)
    requires ';' !in stamp && ';' !in user.firstName && ';' !in Show(user.lastName) && ';' !in text
    requires ';' !in Show(data.message) && ';' !in data.city && ';' !in data.localTime
    ensures var line := WeatherLog(stamp, user, text, Answered(data));
      |line| > 0 && line[|line| - 1] == '\n' &&
      Text.Split(line[..|line| - 1], ';') ==
        [stamp, Decimal(user.id), user.firstName + " " + Show(user.lastName),
         "message.text=" + text, "result=" + ResponseResult(data)]
  {
    var fields := [stamp, Decimal(user.id), user.firstName + " " + Show(user.lastName),
      "message.text=" + text, "result=" + ResponseResult(data)];
    assert Head(stamp, user) + ["message.text=" + text, "result=" + ResponseResult(data)] == fields;
    RecordFields(fields);
  }

  /** The same for the exception line: when the logged strings and the
      error text are free of `;`, it splits back into the stamp, id, name,
      message text and `Exception=` followed by the error. */
  lemma ExceptionLogReadsBack(stamp: string, user: User, text: string, error: string)
    requires ';' !in stamp && ';' !in user.firstName && ';' !in Show(user.lastName) && ';' !in text
    requires ';' !in error
    ensures var line := WeatherLog(stamp, user, text, Raised(error));
      |line| > 0 && line[|line| - 1] == '\n' &&
      Text.Split(line[..|line| - 1], ';') ==
        [stamp, Decimal(user.id), user.firstName + " " + Show(user.lastName),
         "message.text=" + text, "Exception=" + error]
  {
    var fields := [stamp, Decimal(user.id), user.firstName + " " + Show(user.lastName),
      "message.text=" + text, "Exception=" + error];
    assert Head(stamp, user) + ["message.text=" + text, "Exception=" + error] == fields;
    RecordFields(fields);
  }
}
